=== FILE: README.md ===
# DocumentSharingApp — a Dafny model of its decision logic

DocumentSharingApp is an Android app. A signed-in user uploads documents and a profile picture into app-private storage, with metadata in a Firebase Realtime Database. The user then browses, searches and filters those documents.

This project models the logic the app's screens run on that metadata and on their form input:

- **The `Document` bean** (`Documents`): its fields, constructors and setters. Also the bean mapper's reading of a record node and the listeners' skipping of null records.
- **The extension classifier** (`Classifier`): the icon chain and the MIME chain of the document adapter, next to an order-free table of the eleven extensions.
- **The document list** (`DocumentList`): the chip → type-code mapping, the query/type filter, and the empty-state decision of the data listener.
- **The home screen** (`Home`):
  - a stable newest-first sort;
  - the total count;
  - the three most recent records;
  - a search that lifts the three-record cap.
- **The adapter's actions** (`RecentAdapter`): the icon of a row, and the "open" action with its missing-file guard.
- **The profile screen** (`Profile`): the document count and total-bytes fold, and the fallbacks for name, email and bio.
- **The uploads** (`Uploads`):
  - the fallback name of a picked document;
  - its metadata node;
  - the merge-with-defaults that the profile-picture upload writes.
- **The forms** (`Forms`, `SignUp`, `EditProfile`, `SignIn`):
  - trimming and validation;
  - the profile nodes the forms write;
  - the partial update of the edit screen;
  - the "remember me" preference with its prefill on the next start.

Modelling choices:

- **Nulls and crashes.** A Java `null` is `None` of an `Option`. A call that would throw (a `NullPointerException` on a null name or path, or `substring(0, 5)` on a short uid) makes the operation return `Fail` with the fault's kind. A missing signed-in user returns `Fail(NoUser)` or leaves the view as it was, as the code does.
- **Database nodes.** A node is a map from child keys to `Text`, `Number` or `Null` leaves:
  - `setValue` stores the non-null entries of the written map;
  - `updateChildren` overwrites only the listed keys.
- **Snapshots and parameters.** A data snapshot is the sequence of its children, each already read as a document or as null. The clock, the file system (`exists`, `length`), the authentication result and the content copy are all parameters.
- **Text.** `toLowerCase` is ASCII case folding. `trim` removes the characters up to `' '` at both ends, as Java's does. `length` counts UTF-16 code units: a character beyond the Basic Multilingual Plane counts twice. `trim` and `substring(0, 5)` on a uid agree with the character-level model, because surrogates are never blanks and Firebase uids are ASCII.

## Model

| member | source | states |
|---|---|---|
| Documents.NewDocument | app/src/main/java/com/example/documentsharingapp/Document.java:8-10 | the no-argument constructor leaves both names null and the timestamp 0 |
| Documents.MakeDocument | app/src/main/java/com/example/documentsharingapp/Document.java:12-16 | the three-argument constructor stores exactly the given name, path and timestamp |
| Documents.SetFileName | app/src/main/java/com/example/documentsharingapp/Document.java:22-24 | the setter changes the name and leaves path and timestamp as they were |
| Documents.SetLocalPath | app/src/main/java/com/example/documentsharingapp/Document.java:30-32 | the setter changes the path and leaves name and timestamp as they were |
| Documents.SetTimestamp | app/src/main/java/com/example/documentsharingapp/Document.java:38-40 | the setter changes the timestamp and leaves name and path as they were |
| Documents.SettersBuildConstructor | app/src/main/java/com/example/documentsharingapp/Document.java:8-40 | filling an empty bean through the three setters gives the three-argument constructor's value |
| Documents.SettersIndependent | app/src/main/java/com/example/documentsharingapp/Document.java:18-40 | setters of different fields commute; the getter returns the last value set |
| Documents.Decode | app/src/main/java/com/example/documentsharingapp/DocumentsFragment.java:86 | a record node reads as a document exactly when no child has the wrong kind; a missing child gives the default and a present one its value |
| Documents.Present | app/src/main/java/com/example/documentsharingapp/DocumentsFragment.java:84-90 | the backing list holds exactly the non-null records of the snapshot and is never longer than it |
| Documents.PresentIsNullSkip | app/src/main/java/com/example/documentsharingapp/HomeFragment.java:135-143 | the backing list is the snapshot with the nulls removed, each record once and in snapshot order |
| Documents.PresentLengthIff | app/src/main/java/com/example/documentsharingapp/HomeFragment.java:136-149 | the home total equals the number of children exactly when no child is null |
| Database.GetString | app/src/main/java/com/example/documentsharingapp/ProfileFragment.java:95 | reading a child as a string yields its text when the child is text and null otherwise |
| Database.SetValue | app/src/main/java/com/example/documentsharingapp/HomeActivity.java:301 | a whole-node write stores each non-null entry of the map and nothing else |
| Database.UpdateChildren | app/src/main/java/com/example/documentsharingapp/EditProfileActivity.java:181 | a partial update replaces the listed children, removes a child listed as null and keeps every other child |
| Database.UpdateAgreesWithSetValue | app/src/main/java/com/example/documentsharingapp/EditProfileActivity.java:181 | with no nulls on either side, a partial update stores the same node as writing the old node overlaid with the updates |
| Text.ContainsIff | app/src/main/java/com/example/documentsharingapp/DocumentsFragment.java:156 | `contains` holds exactly when the query occurs at some position of the name |
| Text.Trim | app/src/main/java/com/example/documentsharingapp/SignUpActivity.java:80-83 | the trimmed string is the part of the input that follows its leading blanks and precedes an all-blank tail, and it neither starts nor ends with a blank |
| Text.TrimIdempotent | app/src/main/java/com/example/documentsharingapp/SignUpActivity.java:80-83 | trimming a trimmed value changes nothing |
| Text.Utf16Length | app/src/main/java/com/example/documentsharingapp/SignUpActivity.java:146 | Java's length lies between the character count and twice it, and is zero only for the empty string |
| Text.Utf16LengthSingle | app/src/main/java/com/example/documentsharingapp/SignUpActivity.java:146 | one character is one code unit, or two when it lies beyond the Basic Multilingual Plane |
| Text.Utf16LengthConcat | app/src/main/java/com/example/documentsharingapp/SignUpActivity.java:146 | the length of a concatenation is the sum of the lengths, so with the one-character case the length is the sum of the characters' units |
| Text.TrimEmptyIff | app/src/main/java/com/example/documentsharingapp/SignUpActivity.java:80-83 | a field trims to the empty string exactly when it holds only blanks |
| Classifier.Classify | app/src/main/java/com/example/documentsharingapp/RecentDocumentAdapter.java:64-78 | the icon chain: by `ChainsFollowTable` each listed extension gets its table icon, and by `FallbackIffNoExtension` exactly the names without a listed extension get the generic icon |
| Classifier.MimeType | app/src/main/java/com/example/documentsharingapp/RecentDocumentAdapter.java:114-137 | the MIME chain: by `ChainsFollowTable` each listed extension gets its table type, and by `FallbackIffNoExtension` exactly the names without a listed extension get "*/*" |
| Classifier.ClassifyName | app/src/main/java/com/example/documentsharingapp/RecentDocumentAdapter.java:64 | the icon of a stored name is the chain applied to its lower-cased form; by `NameFollowsTable` a lower-cased name ending with a listed extension gets that extension's icon, and the generic icon goes exactly to names with none |
| Classifier.MimeTypeOfName | app/src/main/java/com/example/documentsharingapp/RecentDocumentAdapter.java:99 | the MIME type of a stored name is the chain applied to its lower-cased form; by `NameFollowsTable` a lower-cased name ending with a listed extension gets that extension's type, and "*/*" goes exactly to names with none |
| Classifier.NameFollowsTable | app/src/main/java/com/example/documentsharingapp/RecentDocumentAdapter.java:64-137 | after lower-casing, a stored name ending with a listed extension gets that extension's icon and MIME type, and the generic icon and "*/*" go exactly to names with no listed extension |
| Classifier.SuffixesIncomparable | app/src/main/java/com/example/documentsharingapp/RecentDocumentAdapter.java:65-77 | no listed extension is a suffix of another one (".doc" of ".docx", ".jpg" of ".jpeg") |
| Classifier.ExtensionUnique | app/src/main/java/com/example/documentsharingapp/RecentDocumentAdapter.java:65-77 | a name ends with at most one listed extension |
| Classifier.ChainsFollowTable | app/src/main/java/com/example/documentsharingapp/RecentDocumentAdapter.java:64-137 | a name with a listed extension gets that extension's icon and MIME type, whatever its position in the chains |
| Classifier.TableEntryFacts | app/src/main/java/com/example/documentsharingapp/RecentDocumentAdapter.java:114-134 | no extension maps to the generic icon or to "*/*"; an extension's MIME type starts with "image/" exactly when its icon is the image icon |
| Classifier.NoExtensionFallsThrough | app/src/main/java/com/example/documentsharingapp/RecentDocumentAdapter.java:76-137 | a name without a listed extension gets the generic icon and "*/*" |
| Classifier.FallbackIffNoExtension | app/src/main/java/com/example/documentsharingapp/RecentDocumentAdapter.java:64-137 | the generic icon, and equally "*/*", are given exactly to names without a listed extension, the empty name included |
| Classifier.ClassifyIffExtensionOf | app/src/main/java/com/example/documentsharingapp/RecentDocumentAdapter.java:64-78 | a real category is given exactly to names ending with one of its extensions |
| Classifier.ImageMimeIffImageIcon | app/src/main/java/com/example/documentsharingapp/RecentDocumentAdapter.java:73-134 | the MIME type starts with "image/" exactly when the icon is the image icon |
| Classifier.NameLookupCaseInsensitive | app/src/main/java/com/example/documentsharingapp/RecentDocumentAdapter.java:64-99 | names equal up to case get the same icon and MIME type |
| Classifier.UpperCaseExtensionRecognised | app/src/main/java/com/example/documentsharingapp/RecentDocumentAdapter.java:64-66 | "REPORT.PDF" gets the PDF icon |
| DocumentList.SelectedFileType | app/src/main/java/com/example/documentsharingapp/DocumentsFragment.java:132-149 | the code is one of the six, and it is "all" exactly when no type chip is checked |
| DocumentList.FilterDocuments | app/src/main/java/com/example/documentsharingapp/DocumentsFragment.java:151-180 | the result is an order-keeping subsequence of the list holding exactly the records that match query and type; a null name throws |
| DocumentList.PdfCodeIsPdfIcon | app/src/main/java/com/example/documentsharingapp/DocumentsFragment.java:161-162 | the "pdf" test accepts exactly the names drawn with the PDF icon |
| DocumentList.DocCodeIsWordIcon | app/src/main/java/com/example/documentsharingapp/DocumentsFragment.java:163-164 | the "doc" test accepts exactly the names drawn with the Word icon |
| DocumentList.XlsCodeIsSpreadsheetIcon | app/src/main/java/com/example/documentsharingapp/DocumentsFragment.java:165-166 | the "xls" test accepts exactly the names drawn with the spreadsheet icon |
| DocumentList.PptCodeIsPresentationIcon | app/src/main/java/com/example/documentsharingapp/DocumentsFragment.java:167-168 | the "ppt" test accepts exactly the names drawn with the presentation icon |
| DocumentList.ImgCodeIsImageIcon | app/src/main/java/com/example/documentsharingapp/DocumentsFragment.java:169-171 | the "img" test accepts exactly the names drawn with the image icon |
| DocumentList.MatchesTypeIffCategory | app/src/main/java/com/example/documentsharingapp/DocumentsFragment.java:157-172 | a type chip keeps exactly the names of its category; every other chip keeps every name |
| DocumentList.KeepsIff | app/src/main/java/com/example/documentsharingapp/DocumentsFragment.java:154-176 | a record is listed exactly when its name contains the query (or the query is empty) and the chip is "all" or names its category |
| DocumentList.EmptyQueryMatchesAll | app/src/main/java/com/example/documentsharingapp/DocumentsFragment.java:156 | the empty query matches every name |
| DocumentList.FilterIdentity | app/src/main/java/com/example/documentsharingapp/DocumentsFragment.java:156-160 | the empty query with the "all" code lists the backing list unchanged |
| DocumentList.UnknownCodeKeepsNothing | app/src/main/java/com/example/documentsharingapp/DocumentsFragment.java:157-172 | a code outside the six lists nothing |
| DocumentList.FilterDocumentsConcat | app/src/main/java/com/example/documentsharingapp/DocumentsFragment.java:154-177 | filtering a list split in two gives the two filtered parts in order |
| DocumentList.OnDocumentsChanged | app/src/main/java/com/example/documentsharingapp/DocumentsFragment.java:83-101 | the list becomes the non-null records; the empty state shows exactly when all are null and then the filtered list is kept; otherwise the filtered list is the filter's result on the new list, and a null name throws |
| DocumentList.OnFilterChanged | app/src/main/java/com/example/documentsharingapp/DocumentsFragment.java:111-130 | typing or changing chip makes the filtered list the filter's result on the backing list as it stands, leaving it and the empty state alone; a null name throws |
| DocumentList.RefilterIsStable | app/src/main/java/com/example/documentsharingapp/DocumentsFragment.java:83-130 | after a data change, re-filtering with the same query and chip shows the same screen |
| DocumentList.EmptyStateIgnoresFilter | app/src/main/java/com/example/documentsharingapp/DocumentsFragment.java:93-100 | any non-empty store of named records that all miss the query or chip hides the empty state yet lists nothing |
| Home.Insert | app/src/main/java/com/example/documentsharingapp/HomeFragment.java:146 | inserting into a newest-first list keeps it newest first and adds exactly the one record |
| Home.SortByRecency | app/src/main/java/com/example/documentsharingapp/HomeFragment.java:146 | the sorted list is newest first and a permutation of the input |
| Home.InsertKeepsTieOrder | app/src/main/java/com/example/documentsharingapp/HomeFragment.java:146 | insertion keeps every group of equal timestamps in order |
| Home.SortKeepsTieOrder | app/src/main/java/com/example/documentsharingapp/HomeFragment.java:146 | the sort is stable: records with equal timestamps keep their snapshot order |
| Home.SortedTieOrderUnique | app/src/main/java/com/example/documentsharingapp/HomeFragment.java:146 | two newest-first lists with the same tie groups are equal |
| Home.StableSortIsUnique | app/src/main/java/com/example/documentsharingapp/HomeFragment.java:146 | any newest-first arrangement that keeps ties in input order is the sort's result, so the model agrees with a stable `Collections.sort` |
| Home.TiesKeepSnapshotOrder | app/src/main/java/com/example/documentsharingapp/HomeFragment.java:146 | timestamps 100, 100, 50 stay in snapshot order |
| Home.Recent | app/src/main/java/com/example/documentsharingapp/HomeFragment.java:152-155 | the recent view holds min(3, n) records and they are the first ones of the sorted list |
| Home.RecentAreNewest | app/src/main/java/com/example/documentsharingapp/HomeFragment.java:151-155 | no record left out of the recent view is newer than one in it |
| Home.FilterHome | app/src/main/java/com/example/documentsharingapp/HomeFragment.java:199-216 | the empty query shows the recent view; another query shows exactly the sorted records whose name contains it, in order, and a null name throws |
| Home.FilterHomeSingle | app/src/main/java/com/example/documentsharingapp/HomeFragment.java:199-216 | on one named record a query keeps it exactly when its name contains the query |
| Home.FilterHomeConcat | app/src/main/java/com/example/documentsharingapp/HomeFragment.java:199-216 | searching a list split in two searches each part, so the matches are exactly the matching records, in order, duplicates kept |
| Home.QueryIsNotCapped | app/src/main/java/com/example/documentsharingapp/HomeFragment.java:206-212 | a query every record matches lists all records, however many |
| Home.OnDocumentsChanged | app/src/main/java/com/example/documentsharingapp/HomeFragment.java:134-164 | the list is the non-null records sorted stably newest first; the total is their number; the shown list is the search's result on that list, and its length is the shown count; it throws exactly when the query is non-empty and a record has a null name |
| RecentAdapter.Icon | app/src/main/java/com/example/documentsharingapp/RecentDocumentAdapter.java:54-78 | a row's icon is the classification of its lower-cased name; a null name throws |
| RecentAdapter.OpenFile | app/src/main/java/com/example/documentsharingapp/RecentDocumentAdapter.java:84-112 | a null path throws; a missing file opens nothing; otherwise the file is viewed with the name's MIME type, and a null name throws |
| RecentAdapter.OpenedTypeMatchesIcon | app/src/main/java/com/example/documentsharingapp/RecentDocumentAdapter.java:64-99 | a viewed file has an image MIME type exactly when its row has the image icon, and "*/*" exactly when it has the generic one |
| RecentAdapter.MissingFileOpensNothing | app/src/main/java/com/example/documentsharingapp/RecentDocumentAdapter.java:85-89 | a tap on a record whose file is gone does nothing, whatever its name |
| RecentAdapter.FilteredRecordsShowChipIcon | app/src/main/java/com/example/documentsharingapp/DocumentsFragment.java:157-176 | every record listed under a type chip gets that chip's icon from the adapter |
| Profile.TotalSize | app/src/main/java/com/example/documentsharingapp/ProfileFragment.java:149-154 | the total is zero when no record adds anything and is at least each record's contribution |
| Profile.LoadDocumentStats | app/src/main/java/com/example/documentsharingapp/ProfileFragment.java:141-159 | the count is the number of child records and the total is the records' contributions summed in order |
| Profile.ExistingFiles | app/src/main/java/com/example/documentsharingapp/ProfileFragment.java:149-153 | the collected paths all exist and are at most one per record |
| Profile.TotalSizeConcat | app/src/main/java/com/example/documentsharingapp/ProfileFragment.java:145-156 | the total over two runs of records is the sum of their totals |
| Profile.TotalSizeIsSumOfExistingFiles | app/src/main/java/com/example/documentsharingapp/ProfileFragment.java:149-154 | the total is the sum of the lengths of exactly the existing files named by a text path |
| Profile.StatsMonotone | app/src/main/java/com/example/documentsharingapp/ProfileFragment.java:145-156 | adding a record raises the count by one and never lowers the total |
| Profile.CountMatchesHomeIffAllReadable | app/src/main/java/com/example/documentsharingapp/ProfileFragment.java:145-146 | the profile count equals the home total exactly when every record reads as a document; the two can differ only through a malformed record, which Firebase's mapper rejects by throwing and this model reads as null |
| Profile.DisplayName | app/src/main/java/com/example/documentsharingapp/ProfileFragment.java:95-100 | a non-empty stored name is shown as is; otherwise "User"; the shown name is never empty |
| Profile.DisplayBio | app/src/main/java/com/example/documentsharingapp/ProfileFragment.java:111-116 | a non-empty stored bio is shown as is; otherwise "No bio added yet" |
| Profile.DisplayEmail | app/src/main/java/com/example/documentsharingapp/ProfileFragment.java:103-108 | a non-empty stored email wins; otherwise the account email if there is one; otherwise the field is left alone |
| Profile.LoadProfile | app/src/main/java/com/example/documentsharingapp/ProfileFragment.java:88-135 | without a user or a stored profile nothing changes; otherwise each field follows its fallback, and the picture becomes the stored path exactly when that path is non-null and its file exists |
| Profile.MissingBioShowsPlaceholder | app/src/main/java/com/example/documentsharingapp/ProfileFragment.java:111-116 | a profile without a bio shows the placeholder |
| Uploads.FallbackFileName | app/src/main/java/com/example/documentsharingapp/HomeActivity.java:175-177 | the fallback name starts with "unnamed_", ends with ".file", and its non-empty middle is all digits and reads back as the clock's milliseconds |
| Uploads.FallbackNamesDistinct | app/src/main/java/com/example/documentsharingapp/HomeActivity.java:176 | uploads at different milliseconds get different fallback names |
| Uploads.FallbackNameIsGeneric | app/src/main/java/com/example/documentsharingapp/HomeActivity.java:174-177 | a fallback name gets the generic icon and the "*/*" MIME type, and no file-type chip of the documents list keeps it |
| Text.DecimalRoundTrip | app/src/main/java/com/example/documentsharingapp/HomeActivity.java:176 | reading back the decimal digits Java appends for a number gives that number |
| Text.DecimalStringInjective | app/src/main/java/com/example/documentsharingapp/HomeActivity.java:176 | different numbers are written as different digit strings |
| Uploads.DocumentMetadata | app/src/main/java/com/example/documentsharingapp/HomeActivity.java:321-324 | the metadata map has exactly the keys fileName, localPath and timestamp, none null |
| Uploads.MetadataRoundTrip | app/src/main/java/com/example/documentsharingapp/HomeActivity.java:321-326 | a stored metadata map reads back as the document with that name, path and time |
| Uploads.UploadName | app/src/main/java/com/example/documentsharingapp/HomeActivity.java:174-177 | the picker's name is kept; a null name becomes the fallback |
| Uploads.SaveDocument | app/src/main/java/com/example/documentsharingapp/HomeActivity.java:169-209 | with no user or a failed copy nothing is written; otherwise the written record reads back as the upload's name, its local path and the save time |
| Uploads.DefaultFullName | app/src/main/java/com/example/documentsharingapp/HomeActivity.java:288-293 | the default name is "User " and the uid's first five characters, and a shorter uid throws |
| Uploads.ProfileMap | app/src/main/java/com/example/documentsharingapp/HomeActivity.java:283-298 | the map handed to `setValue` has exactly the four profile keys and the new picture; a stored text name, email or phone is kept and a missing one defaulted, only the email can be null, and the uid is cut only when the name is missing |
| Uploads.SaveProfileToDatabase | app/src/main/java/com/example/documentsharingapp/HomeActivity.java:274-311 | no user writes nothing; a short uid throws only when the name must be defaulted; the node has at most the four keys, the new picture, every stored text name, email and phone, and for a missing one the default name, the account email (absent when it has none) or the empty phone |
| Uploads.MissingProfileIsEmptyProfile | app/src/main/java/com/example/documentsharingapp/HomeActivity.java:282-296 | the no-profile branch writes what the merge writes for an empty profile |
| Uploads.DefaultsForNewProfile | app/src/main/java/com/example/documentsharingapp/HomeActivity.java:291-298 | a new profile gets the default name, an empty phone, the account email when there is one, and the picture |
| Uploads.PictureUploadDropsBio | app/src/main/java/com/example/documentsharingapp/HomeActivity.java:281-301 | the whole-node write loses a stored bio, so the profile screen then shows the placeholder |
| Forms.FilledAfterTrimIff | app/src/main/java/com/example/documentsharingapp/LoginActivity.java:82-114 | a raw field counts as filled after trimming exactly when it is not all blanks |
| SignUp.ValidateSignUp | app/src/main/java/com/example/documentsharingapp/SignUpActivity.java:140-152 | accepted exactly when all four fields are filled and the password is at least 6 UTF-16 code units long; a missing field is reported before a short password |
| SignUp.BmpPasswordCountsCharacters | app/src/main/java/com/example/documentsharingapp/SignUpActivity.java:146 | for a password within the Basic Multilingual Plane the length rule counts characters |
| SignUp.AstralPasswordAccepted | app/src/main/java/com/example/documentsharingapp/SignUpActivity.java:146 | a password of three characters beyond the Basic Multilingual Plane is six units long and accepted |
| SignUp.HandleSignUp | app/src/main/java/com/example/documentsharingapp/SignUpActivity.java:79-91 | an account is requested, with the trimmed fields, exactly when the trimmed form validates |
| SignUp.BlankFieldIsMissing | app/src/main/java/com/example/documentsharingapp/SignUpActivity.java:80-144 | a field of blanks is a missing field, whatever the password |
| SignUp.ShortPasswordRefusedIff | app/src/main/java/com/example/documentsharingapp/SignUpActivity.java:82-149 | with every field filled, the form is refused exactly when the trimmed password is shorter than 6 UTF-16 code units |
| SignUp.SaveUserProfile | app/src/main/java/com/example/documentsharingapp/SignUpActivity.java:119-125 | the profile node has exactly fullName, email and phone, holding the form's values |
| SignUp.OnRegistered | app/src/main/java/com/example/documentsharingapp/SignUpActivity.java:93-98 | the profile is written exactly when registration succeeded with a signed-in user |
| SignUp.PasswordNotStored | app/src/main/java/com/example/documentsharingapp/SignUpActivity.java:120-123 | the password is not a key of the profile node |
| EditProfile.FillIfPresent | app/src/main/java/com/example/documentsharingapp/EditProfileActivity.java:95-110 | an input changes only to a non-null, non-empty stored value |
| EditProfile.LoadUserData | app/src/main/java/com/example/documentsharingapp/EditProfileActivity.java:82-129 | the email input takes the account email when it has one; with a user and a profile, each of name, phone and bio takes its stored value when that is non-null and non-empty, and otherwise keeps its text; nothing else changes them |
| EditProfile.SaveProfile | app/src/main/java/com/example/documentsharingapp/EditProfileActivity.java:157-181 | no user aborts; a name that trims to empty is refused; otherwise the update has exactly fullName, phone and bio, trimmed |
| EditProfile.BlankNameRefused | app/src/main/java/com/example/documentsharingapp/EditProfileActivity.java:164-172 | the save is refused exactly when the name is all blanks; phone and bio may be blank |
| EditProfile.UpdateKeepsOtherFields | app/src/main/java/com/example/documentsharingapp/EditProfileActivity.java:175-181 | email, profilePicture and every other child survive the update |
| EditProfile.SavedProfileIsDisplayed | app/src/main/java/com/example/documentsharingapp/EditProfileActivity.java:164-181 | after a save the profile screen shows the trimmed name, and the trimmed bio or the placeholder |
| EditProfile.LoadThenSaveKeepsName | app/src/main/java/com/example/documentsharingapp/EditProfileActivity.java:95-176 | loading a trimmed stored name and saving unedited writes the same name back |
| SignIn.ValidateCredentials | app/src/main/java/com/example/documentsharingapp/MainActivity.java:144-150 | accepted exactly when email and password are both non-empty; there is no length rule |
| SignIn.HandleSignIn | app/src/main/java/com/example/documentsharingapp/LoginActivity.java:81-91 | sign-in is attempted, with the trimmed values, exactly when they validate |
| SignIn.NoPasswordLengthRule | app/src/main/java/com/example/documentsharingapp/MainActivity.java:105-110 | sign-in is attempted exactly when neither field is all blanks |
| SignIn.AfterSignIn | app/src/main/java/com/example/documentsharingapp/MainActivity.java:113-126 | a failure keeps the prefs; a success with the box ticked stores remember_me=true and the email; without it clears them |
| SignIn.Prefill | app/src/main/java/com/example/documentsharingapp/MainActivity.java:71-83 | the form changes only when remember_me is true and the saved email is non-empty, and then shows that email with the box ticked |
| SignIn.RememberMeRoundTrip | app/src/main/java/com/example/documentsharingapp/MainActivity.java:72-126 | a remembered sign-in prefills its email on the next start; an unremembered one leaves the next start untouched |
| SignIn.FailedSignInKeepsPrefill | app/src/main/java/com/example/documentsharingapp/MainActivity.java:113-135 | a failed sign-in does not change what the next start prefills |

## Left out

- Firebase Auth and Realtime Database calls, listeners and their asynchrony. Their results are inputs: a snapshot as a sequence of children, an authentication result as a boolean, the current user as an `Option`. `onCancelled` handlers at most show a toast and are not modelled.
- The content-resolver query, the byte-copy loops and `mkdirs` (HomeActivity.java). The copy is one boolean `copyOk`. The profile picture's own file name (uid + ".jpg") is only a path passed in.
- File existence and size are the parameters `fileExists` and `fileLength`. `File.getAbsolutePath` is not normalised: the stored path is the files directory, "/documents/" and the name.
- The MB conversion and `%.1f` formatting of the storage total, which is floating point.
- `SimpleDateFormat` date rendering in the adapter, which depends on locale and time zone.
- Intents, `FileProvider`, navigation, toasts, visibility changes, adapters' `notifyDataSetChanged` and image views. A "picture shown" is only the path chosen.
- Text.Lower: folds ASCII letters only, where Java's `toLowerCase` also folds other scripts and depends on the default locale.
- Documents.Decode: a child of the wrong kind makes Firebase's mapper throw, but here the record reads as null and is skipped.
- Database.GetString: reading a number as a string makes Firebase throw; here it reads as null.
- Home.OnDocumentsChanged: when a null name throws mid-listener, the Java screen already holds the new list and counts. The model returns only the fault.
- DocumentList.OnDocumentsChanged: likewise returns only the fault when a null name throws mid-listener.
- Profile.LoadDocumentStats: `count` is a Java `int` and the total a `long`. Here both are unbounded, so overflow is not modelled.
- Home.SortByRecency: timestamps are unbounded integers, so `long` overflow is not modelled. `Long.compare` does not overflow, so the order is the same.
- `DocumentAdapter` is not modelled; the icon lemmas use `RecentDocumentAdapter`'s chain.

=== FILE: account.dfy ===
/** The signed-in account, as the authentication service reports it. */
module Accounts {
  import opened Wrappers

  /** `FirebaseUser`: the app reads only the uid and the (nullable) email. */
  datatype User = User(uid: string, email: Option<string>)
}

=== FILE: classifier.dfy ===
/** File-type classification by extension.

    Two if-chains in the document adapter decide, from a lower-cased file
    name, which icon a record gets and which MIME type an "open" request
    carries. Both test the same eleven extensions by suffix. Below, each chain
    is written as the adapter writes it (`Classify`, `MimeType`), next to an
    order-free reference table (`Extension`, `Suffix`, `CategoryOf`,
    `MimeOf`); the lemmas show the chains compute exactly the table, which
    holds because no listed extension is a suffix of another.
 */
module Classifier {
  import opened Text
  import opened Wrappers

  /** The icon a record is drawn with; `Other` is the generic file icon. */
  datatype Category = Pdf | Word | Spreadsheet | Presentation | Image | Other

  /** The eleven recognised extensions. */
  datatype Extension =
    | PdfExt | DocExt | DocxExt | XlsExt | XlsxExt | PptExt | PptxExt
    | JpgExt | JpegExt | PngExt | GifExt

  function Suffix(e: Extension): string
  {
    match e
    case PdfExt => ".pdf"
    case DocExt => ".doc"
    case DocxExt => ".docx"
    case XlsExt => ".xls"
    case XlsxExt => ".xlsx"
    case PptExt => ".ppt"
    case PptxExt => ".pptx"
    case JpgExt => ".jpg"
    case JpegExt => ".jpeg"
    case PngExt => ".png"
    case GifExt => ".gif"
  }

  function CategoryOf(e: Extension): Category
  {
    match e
    case PdfExt => Pdf
    case DocExt | DocxExt => Word
    case XlsExt | XlsxExt => Spreadsheet
    case PptExt | PptxExt => Presentation
    case JpgExt | JpegExt | PngExt | GifExt => Image
  }

  function MimeOf(e: Extension): string
  {
    match e
    case PdfExt => "application/pdf"
    case DocExt => "application/msword"
    case DocxExt => OpenXml + "wordprocessingml.document"
    case XlsExt => "application/vnd.ms-excel"
    case XlsxExt => OpenXml + "spreadsheetml.sheet"
    case PptExt => "application/vnd.ms-powerpoint"
    case PptxExt => OpenXml + "presentationml.presentation"
    case JpgExt | JpegExt => "image/jpeg"
    case PngExt => "image/png"
    case GifExt => "image/gif"
  }

  /** The common prefix of the three Office Open XML types,
      "application/vnd.openxmlformats-officedocument.". */
  const OpenXml: string := "application/" + "vnd.openxmlformats-" + "officedocument."

  /** The MIME type an unrecognised name is opened with. */
  const Wildcard: string := "*/*"

  /** `name` ends with one of the recognised extensions. */
  predicate HasExtension(name: string)
  {
    exists e :: EndsWith(name, Suffix(e))
  }

  // ---------------------------------------------------------------------
  // The adapter's two chains, on an already lower-cased name
  // ---------------------------------------------------------------------

  /** The icon chain of the adapter's `bind`. */
  function Classify(name: string): Category
  {
    if EndsWith(name, ".pdf") then Pdf
    else if EndsWith(name, ".doc") || EndsWith(name, ".docx") then Word
    else if EndsWith(name, ".xls") || EndsWith(name, ".xlsx") then Spreadsheet
    else if EndsWith(name, ".ppt") || EndsWith(name, ".pptx") then Presentation
    else if EndsWith(name, ".jpg") || EndsWith(name, ".jpeg")
         || EndsWith(name, ".png") || EndsWith(name, ".gif") then Image
    else Other
  }

  /** The adapter's `getMimeType`. */
  function MimeType(name: string): string
  {
    if EndsWith(name, ".pdf") then "application/pdf"
    else if EndsWith(name, ".doc") then "application/msword"
    else if EndsWith(name, ".docx") then OpenXml + "wordprocessingml.document"
    else if EndsWith(name, ".xls") then "application/vnd.ms-excel"
    else if EndsWith(name, ".xlsx") then OpenXml + "spreadsheetml.sheet"
    else if EndsWith(name, ".ppt") then "application/vnd.ms-powerpoint"
    else if EndsWith(name, ".pptx") then OpenXml + "presentationml.presentation"
    else if EndsWith(name, ".jpg") || EndsWith(name, ".jpeg") then "image/jpeg"
    else if EndsWith(name, ".png") then "image/png"
    else if EndsWith(name, ".gif") then "image/gif"
    else Wildcard
  }

  /** Classification of a stored file name: the adapter lower-cases first,
      so a name whose lower-cased form has a recognised extension gets that
      extension's category, and any other name the generic icon. */
  function ClassifyName(fileName: string): Category
  {
    Classify(Lower(fileName))
  }

  /** The MIME type of a stored file name, likewise from the lower-cased
      name: the table's type, or the wildcard. */
  function MimeTypeOfName(fileName: string): string
  {
    MimeType(Lower(fileName))
  }

  // ---------------------------------------------------------------------
  // The chains agree with the table
  // ---------------------------------------------------------------------

  /** Every suffix is a dot followed by dot-free letters. */
  lemma SuffixShape(e: Extension)
    ensures |Suffix(e)| >= 2 && Suffix(e)[0] == '.'
    ensures forall i :: 1 <= i < |Suffix(e)| ==> Suffix(e)[i] != '.'
  {
  }

  /** Reading an extension back from its suffix. */
  function FromSuffix(s: string): Option<Extension>
  {
    if s == ".pdf" then Some(PdfExt)
    else if s == ".doc" then Some(DocExt)
    else if s == ".docx" then Some(DocxExt)
    else if s == ".xls" then Some(XlsExt)
    else if s == ".xlsx" then Some(XlsxExt)
    else if s == ".ppt" then Some(PptExt)
    else if s == ".pptx" then Some(PptxExt)
    else if s == ".jpg" then Some(JpgExt)
    else if s == ".jpeg" then Some(JpegExt)
    else if s == ".png" then Some(PngExt)
    else if s == ".gif" then Some(GifExt)
    else None
  }

  lemma FromSuffixInverts(e: Extension)
    ensures FromSuffix(Suffix(e)) == Some(e)
  {
    match e {
      case PdfExt =>
      case DocExt =>
      case DocxExt =>
      case XlsExt =>
      case XlsxExt =>
      case PptExt =>
      case PptxExt =>
      case JpgExt =>
      case JpegExt =>
      case PngExt =>
      case GifExt =>
    }
  }

  /** No recognised extension is a suffix of a different one (".doc" is
      not a suffix of ".docx", ".jpg" not of ".jpeg", and so on): a suffix
      of a suffix starts with its only dot, so the two are equal. */
  lemma SuffixesIncomparable(e1: Extension, e2: Extension)
    ensures EndsWith(Suffix(e1), Suffix(e2)) ==> e1 == e2
  {
    var a, b := Suffix(e1), Suffix(e2);
    if EndsWith(a, b) {
      SuffixShape(e1);
      SuffixShape(e2);
      assert a[|a| - |b|] == b[0];
      assert |a| == |b|;
      assert a == b;
      FromSuffixInverts(e1);
      FromSuffixInverts(e2);
    }
  }

  /** A name ends with at most one recognised extension. */
  lemma ExtensionUnique(name: string, e1: Extension, e2: Extension)
    requires EndsWith(name, Suffix(e1)) && EndsWith(name, Suffix(e2))
    ensures e1 == e2
  {
    if |Suffix(e1)| <= |Suffix(e2)| {
      SuffixOfSuffix(name, Suffix(e1), Suffix(e2));
      SuffixesIncomparable(e2, e1);
    } else {
      SuffixOfSuffix(name, Suffix(e2), Suffix(e1));
      SuffixesIncomparable(e1, e2);
    }
  }

  /** A name with extension `e` ends with no other listed extension. */
  lemma OnlyExtension(name: string, e: Extension)
    requires EndsWith(name, Suffix(e))
    ensures forall x :: EndsWith(name, Suffix(x)) ==> x == e
  {
    forall x | EndsWith(name, Suffix(x)) ensures x == e {
      ExtensionUnique(name, x, e);
    }
  }

  /** The chains' literal tests are the table's suffix tests. */
  lemma LiteralTests(name: string)
    ensures EndsWith(name, ".pdf") == EndsWith(name, Suffix(PdfExt))
    ensures EndsWith(name, ".doc") == EndsWith(name, Suffix(DocExt))
    ensures EndsWith(name, ".docx") == EndsWith(name, Suffix(DocxExt))
    ensures EndsWith(name, ".xls") == EndsWith(name, Suffix(XlsExt))
    ensures EndsWith(name, ".xlsx") == EndsWith(name, Suffix(XlsxExt))
    ensures EndsWith(name, ".ppt") == EndsWith(name, Suffix(PptExt))
    ensures EndsWith(name, ".pptx") == EndsWith(name, Suffix(PptxExt))
    ensures EndsWith(name, ".jpg") == EndsWith(name, Suffix(JpgExt))
    ensures EndsWith(name, ".jpeg") == EndsWith(name, Suffix(JpegExt))
    ensures EndsWith(name, ".png") == EndsWith(name, Suffix(PngExt))
    ensures EndsWith(name, ".gif") == EndsWith(name, Suffix(GifExt))
  {
  }

  /** A name with extension `e` gets `e`'s icon, whatever position `e` has
      in the chain. */
  lemma ClassifyFollowsTable(name: string, e: Extension)
    requires EndsWith(name, Suffix(e))
    ensures Classify(name) == CategoryOf(e)
  {
    OnlyExtension(name, e);
    LiteralTests(name);
    match e {
      case PdfExt =>
      case DocExt =>
      case DocxExt =>
      case XlsExt =>
      case XlsxExt =>
      case PptExt =>
      case PptxExt =>
      case JpgExt =>
      case JpegExt =>
      case PngExt =>
      case GifExt =>
    }
  }

  /** A name with extension `e` gets `e`'s MIME type, whatever position
      `e` has in the chain. */
  lemma MimeFollowsTable(name: string, e: Extension)
    requires EndsWith(name, Suffix(e))
    ensures MimeType(name) == MimeOf(e)
  {
    OnlyExtension(name, e);
    LiteralTests(name);
    match e {
      case PdfExt =>
      case DocExt =>
      case DocxExt =>
      case XlsExt =>
      case XlsxExt =>
      case PptExt =>
      case PptxExt =>
      case JpgExt =>
      case JpegExt =>
      case PngExt =>
      case GifExt =>
    }
  }

  /** Both chains compute the table. */
  lemma ChainsFollowTable(name: string, e: Extension)
    requires EndsWith(name, Suffix(e))
    ensures Classify(name) == CategoryOf(e)
    ensures MimeType(name) == MimeOf(e)
  {
    ClassifyFollowsTable(name, e);
    MimeFollowsTable(name, e);
  }

  /** `ChainsFollowTable` for every listed extension at once. */
  lemma ChainsFollowTableAll(name: string)
    ensures forall e :: EndsWith(name, Suffix(e)) ==> Classify(name) == CategoryOf(e) && MimeType(name) == MimeOf(e)
  {
    forall e | EndsWith(name, Suffix(e))
      ensures Classify(name) == CategoryOf(e) && MimeType(name) == MimeOf(e)
    {
      ChainsFollowTable(name, e);
    }
  }

  /** A stored name follows the table through its lower-cased form: a
      listed extension gives its entry, and the fallbacks go exactly to
      names with none. */
  lemma NameFollowsTable(fileName: string)
    ensures forall e :: EndsWith(Lower(fileName), Suffix(e)) ==>
      ClassifyName(fileName) == CategoryOf(e) && MimeTypeOfName(fileName) == MimeOf(e)
    ensures ClassifyName(fileName) == Other <==> !HasExtension(Lower(fileName))
    ensures MimeTypeOfName(fileName) == Wildcard <==> !HasExtension(Lower(fileName))
  {
    ChainsFollowTableAll(Lower(fileName));
    FallbackIffNoExtension(Lower(fileName));
  }

  /** No table entry has the generic icon or the wildcard MIME type, and an
      entry's MIME type is an image type exactly for the image icon. */
  lemma TableEntryFacts(e: Extension)
    ensures CategoryOf(e) != Other
    ensures MimeOf(e) != Wildcard
    ensures StartsWith(MimeOf(e), "image/") <==> CategoryOf(e) == Image
  {
    var m := MimeOf(e);
    assert |m| > |Wildcard|;
    match e {
      case JpgExt => assert m[..6] == "image/";
      case JpegExt => assert m[..6] == "image/";
      case PngExt => assert m[..6] == "image/";
      case GifExt => assert m[..6] == "image/";
      case PdfExt => assert m[0] == 'a';
      case DocExt => assert m[0] == 'a';
      case DocxExt => assert m[0] == OpenXml[0];
      case XlsExt => assert m[0] == 'a';
      case XlsxExt => assert m[0] == OpenXml[0];
      case PptExt => assert m[0] == 'a';
      case PptxExt => assert m[0] == OpenXml[0];
    }
  }

  /** Without a recognised extension every test of both chains fails. */
  lemma NoExtensionFallsThrough(name: string)
    requires !HasExtension(name)
    ensures Classify(name) == Other
    ensures MimeType(name) == Wildcard
  {
    assert !EndsWith(name, Suffix(PdfExt)) && !EndsWith(name, Suffix(DocExt))
      && !EndsWith(name, Suffix(DocxExt)) && !EndsWith(name, Suffix(XlsExt))
      && !EndsWith(name, Suffix(XlsxExt)) && !EndsWith(name, Suffix(PptExt))
      && !EndsWith(name, Suffix(PptxExt)) && !EndsWith(name, Suffix(JpgExt))
      && !EndsWith(name, Suffix(JpegExt)) && !EndsWith(name, Suffix(PngExt))
      && !EndsWith(name, Suffix(GifExt));
  }

  /** A name gets the generic icon, and equally the wildcard MIME type,
      exactly when it has no recognised extension; the empty name is one. */
  lemma FallbackIffNoExtension(name: string)
    ensures Classify(name) == Other <==> !HasExtension(name)
    ensures MimeType(name) == Wildcard <==> !HasExtension(name)
  {
    if HasExtension(name) {
      var e :| EndsWith(name, Suffix(e));
      ChainsFollowTable(name, e);
      TableEntryFacts(e);
    } else {
      NoExtensionFallsThrough(name);
    }
  }

  /** A real category is assigned exactly to the names ending with one of
      its extensions. */
  lemma ClassifyIffExtensionOf(name: string, c: Category)
    requires c != Other
    ensures Classify(name) == c <==> exists e :: CategoryOf(e) == c && EndsWith(name, Suffix(e))
  {
    if exists e :: CategoryOf(e) == c && EndsWith(name, Suffix(e)) {
      var e :| CategoryOf(e) == c && EndsWith(name, Suffix(e));
      ChainsFollowTable(name, e);
    }
    if Classify(name) == c {
      FallbackIffNoExtension(name);
      var e :| EndsWith(name, Suffix(e));
      ChainsFollowTable(name, e);
    }
  }

  /** The MIME type is an image type exactly when the icon is the image
      icon. */
  lemma ImageMimeIffImageIcon(name: string)
    ensures StartsWith(MimeType(name), "image/") <==> Classify(name) == Image
  {
    if HasExtension(name) {
      var e :| EndsWith(name, Suffix(e));
      ChainsFollowTable(name, e);
      TableEntryFacts(e);
    } else {
      NoExtensionFallsThrough(name);
    }
  }

  /** Lookup is case-insensitive: names that fold to the same string get
      the same icon and MIME type. */
  lemma NameLookupCaseInsensitive(a: string, b: string)
    requires Lower(a) == Lower(b)
    ensures ClassifyName(a) == ClassifyName(b)
    ensures MimeTypeOfName(a) == MimeTypeOfName(b)
  {
  }

  /** Upper-case extensions are recognised: "REPORT.PDF" is a PDF. */
  lemma UpperCaseExtensionRecognised()
    ensures ClassifyName("REPORT.PDF") == Pdf
  {
    assert Lower("REPORT.PDF") == "report.pdf";
    assert EndsWith("report.pdf", Suffix(PdfExt));
  }
}

=== FILE: database.dfy ===
/** The realtime database as seen by the app: a node is a map from child
    keys to leaf values.

    The app writes nodes two ways. `setValue(map)` replaces the whole node;
    a `null` value in the written map stores nothing under that key.
    `updateChildren(map)` overwrites only the listed children.
 */
module Database {
  import opened Wrappers

  datatype Value = Text(text: string) | Number(number: int) | Null

  type Node = map<string, Value>

  /** `snapshot.child(key).getValue(String.class)`: the text stored under
      `key`, or null when the child is absent or not text. */
  function GetString(node: Node, key: string): (r: Option<string>)
    ensures r.Some? <==> key in node && node[key].Text?
    ensures r.Some? ==> node[key] == Text(r.value)
  {
    if key in node && node[key].Text? then Some(node[key].text) else None
  }

  /** The node `setValue(written)` leaves behind: every non-null entry of
      `written` and nothing else. */
  function SetValue(written: Node): (stored: Node)
    ensures forall k :: k in stored <==> k in written && written[k] != Null
    ensures forall k :: k in stored ==> stored[k] == written[k]
  {
    map k | k in written && written[k] != Null :: written[k]
  }

  /** `updateChildren(updates)`: the listed children are replaced, a
      listed null removes its child, and all others keep their value. */
  function UpdateChildren(node: Node, updates: Node): (r: Node)
    ensures forall k :: k in r <==> (k in updates && updates[k] != Null) || (k in node && k !in updates)
    ensures forall k :: k in updates && updates[k] != Null ==> r[k] == updates[k]
    ensures forall k :: k in node && k !in updates ==> r[k] == node[k]
  {
    map k | k in node.Keys + updates.Keys && (k in updates ==> updates[k] != Null) ::
      if k in updates then updates[k] else node[k]
  }

  /** With no nulls among the updates, `updateChildren` and a `setValue`
      of the merged map store the same node. */
  lemma UpdateAgreesWithSetValue(node: Node, updates: Node)
    requires forall k :: k in node ==> node[k] != Null
    requires forall k :: k in updates ==> updates[k] != Null
    ensures UpdateChildren(node, updates) == SetValue(node + updates)
  {
  }

  /** Wrap a nullable Java string as a stored value. */
  function TextOrNull(s: Option<string>): (v: Value)
    ensures s.None? <==> v == Null
    ensures s.Some? ==> v == Text(s.value)
  {
    match s
    case Some(t) => Text(t)
    case None => Null
  }
}

=== FILE: document.dfy ===
/** The `Document` bean: the metadata of one uploaded file.

    The Java class has two nullable `String` fields and a `long` timestamp,
    a no-argument constructor (used by the database's bean mapper), a
    three-argument constructor, and a getter and setter per field. Here the
    bean is an immutable value; a setter returns the updated value.
 */
module Documents {
  import opened Wrappers
  import opened Database
  import opened Seqs

  datatype Document = Document(fileName: Option<string>, localPath: Option<string>, timestamp: int)

  /** `new Document()`: both strings null, timestamp zero. */
  function NewDocument(): (d: Document)
    ensures d.fileName == None && d.localPath == None && d.timestamp == 0
  {
    Document(None, None, 0)
  }

  /** `new Document(fileName, localPath, timestamp)`. */
  function MakeDocument(fileName: Option<string>, localPath: Option<string>, timestamp: int): (d: Document)
    ensures d.fileName == fileName && d.localPath == localPath && d.timestamp == timestamp
  {
    Document(fileName, localPath, timestamp)
  }

  function SetFileName(d: Document, fileName: Option<string>): (r: Document)
    ensures r.fileName == fileName
    ensures r.localPath == d.localPath && r.timestamp == d.timestamp
  {
    d.(fileName := fileName)
  }

  function SetLocalPath(d: Document, localPath: Option<string>): (r: Document)
    ensures r.localPath == localPath
    ensures r.fileName == d.fileName && r.timestamp == d.timestamp
  {
    d.(localPath := localPath)
  }

  function SetTimestamp(d: Document, timestamp: int): (r: Document)
    ensures r.timestamp == timestamp
    ensures r.fileName == d.fileName && r.localPath == d.localPath
  {
    d.(timestamp := timestamp)
  }

  /** Setting every field through the setters, starting from the empty
      bean, builds the same value as the three-argument constructor: this
      is how the bean mapper fills a record. */
  lemma SettersBuildConstructor(fileName: Option<string>, localPath: Option<string>, timestamp: int)
    ensures SetTimestamp(SetLocalPath(SetFileName(NewDocument(), fileName), localPath), timestamp)
            == MakeDocument(fileName, localPath, timestamp)
  {
  }

  /** Setters of different fields commute, and a later set of the same
      field overrides an earlier one. */
  lemma SettersIndependent(d: Document, n1: Option<string>, n2: Option<string>, p: Option<string>, t: int)
    ensures SetLocalPath(SetFileName(d, n1), p) == SetFileName(SetLocalPath(d, p), n1)
    ensures SetTimestamp(SetFileName(d, n1), t) == SetFileName(SetTimestamp(d, t), n1)
    ensures SetTimestamp(SetLocalPath(d, p), t) == SetLocalPath(SetTimestamp(d, t), p)
    ensures SetFileName(SetFileName(d, n1), n2) == SetFileName(d, n2)
  {
  }

  /** `snapshot.getValue(Document.class)` on a record node: each bean
      property is read from the child of the same name, a missing child
      leaves the property at its default, and other children are ignored.
      A child of the wrong kind makes the record unreadable (`None`). */
  function Decode(node: Node): (r: Option<Document>)
    ensures r.Some? <==>
      (("fileName" !in node || !node["fileName"].Number?) &&
       ("localPath" !in node || !node["localPath"].Number?) &&
       ("timestamp" !in node || !node["timestamp"].Text?))
    ensures r.Some? ==> r.value.fileName == GetString(node, "fileName")
    ensures r.Some? ==> r.value.localPath == GetString(node, "localPath")
    ensures r.Some? && "timestamp" in node && node["timestamp"].Number? ==>
      r.value.timestamp == node["timestamp"].number
    ensures r.Some? && ("timestamp" !in node || node["timestamp"].Null?) ==> r.value.timestamp == 0
  {
    var name := if "fileName" in node then node["fileName"] else Null;
    var path := if "localPath" in node then node["localPath"] else Null;
    var time := if "timestamp" in node then node["timestamp"] else Null;
    if name.Number? || path.Number? || time.Text? then None
    else
      Some(Document(
        if name.Text? then Some(name.text) else None,
        if path.Text? then Some(path.text) else None,
        if time.Number? then time.number else 0))
  }

  /** The listeners' null-skip: the records of a snapshot whose
      `getValue(Document.class)` was not null, in snapshot order. */
  function Present(snapshot: seq<Option<Document>>): (r: seq<Document>)
    ensures |r| <= |snapshot|
    ensures forall d :: d in r <==> Some(d) in snapshot
  {
    if snapshot == [] then []
    else match snapshot[0]
      case Some(d) => [d] + Present(snapshot[1..])
      case None => Present(snapshot[1..])
  }

  /** `Present` keeps exactly the non-null children, each once and in order:
      wrapping its result back in `Some` is the snapshot with the nulls
      filtered out. */
  lemma {:induction false} PresentIsNullSkip(snapshot: seq<Option<Document>>)
    ensures Map(Present(snapshot), (d: Document) => Some(d)) == Filter(snapshot, (o: Option<Document>) => o.Some?)
    decreases |snapshot|
  {
    if snapshot != [] {
      PresentIsNullSkip(snapshot[1..]);
    }
  }

  /** The null-skip drops something exactly when some child is null. */
  lemma {:induction false} PresentLengthIff(snapshot: seq<Option<Document>>)
    ensures |Present(snapshot)| == |snapshot| <==> forall i :: 0 <= i < |snapshot| ==> snapshot[i].Some?
    decreases |snapshot|
  {
    if snapshot != [] {
      PresentLengthIff(snapshot[1..]);
      assert forall i :: 1 <= i < |snapshot| ==> snapshot[i] == snapshot[1..][i - 1];
    }
  }
}

=== FILE: documents_fragment.dfy ===
/** The document list screen: its backing list, the chip that selects a
    file type, the search box, and the filtered list it displays.

    Every change notification rebuilds the backing list from the snapshot
    (null children skipped). An empty backing list shows the empty state
    and does not re-filter; otherwise the list is filtered with the current
    query and chip. Typing in the search box or changing the chip re-filters
    the backing list as it stands.
 */
module DocumentList {
  import opened Wrappers
  import opened Text
  import opened Seqs
  import opened Documents
  import opened Classifier

  // ---------------------------------------------------------------------
  // Chip selection
  // ---------------------------------------------------------------------

  /** The id `getCheckedChipId` returns: one of the six filter chips, no
      chip at all, or any other view id. */
  datatype ChipId =
    | PdfChip | DocChip | XlsChip | PptChip | ImgChip | AllChip
    | NoChip
    | OtherId(id: int)

  predicate IsTypeChip(c: ChipId)
  {
    c.PdfChip? || c.DocChip? || c.XlsChip? || c.PptChip? || c.ImgChip?
  }

  /** The file-type code the filter receives for the checked chip. */
  function SelectedFileType(checked: ChipId): (code: string)
    ensures code in {"pdf", "doc", "xls", "ppt", "img", "all"}
    ensures code == "all" <==> !IsTypeChip(checked)
  {
    match checked
    case PdfChip => "pdf"
    case DocChip => "doc"
    case XlsChip => "xls"
    case PptChip => "ppt"
    case ImgChip => "img"
    case AllChip => "all"
    case _ => "all"
  }

  /** The category a chip stands for; `None` is "all". */
  function ChipCategory(checked: ChipId): Option<Category>
  {
    match checked
    case PdfChip => Some(Pdf)
    case DocChip => Some(Word)
    case XlsChip => Some(Spreadsheet)
    case PptChip => Some(Presentation)
    case ImgChip => Some(Image)
    case _ => None
  }

  // ---------------------------------------------------------------------
  // The filter
  // ---------------------------------------------------------------------

  /** The query half of the test, on the lower-cased file name. */
  predicate MatchesQuery(lowerName: string, query: string)
  {
    query == [] || Contains(lowerName, Lower(query))
  }

  /** The type half of the test, on the lower-cased file name; a code
      outside the six matches nothing. */
  predicate MatchesType(lowerName: string, fileType: string)
  {
    if fileType == "all" then true
    else if fileType == "pdf" then EndsWith(lowerName, ".pdf")
    else if fileType == "doc" then EndsWith(lowerName, ".doc") || EndsWith(lowerName, ".docx")
    else if fileType == "xls" then EndsWith(lowerName, ".xls") || EndsWith(lowerName, ".xlsx")
    else if fileType == "ppt" then EndsWith(lowerName, ".ppt") || EndsWith(lowerName, ".pptx")
    else if fileType == "img" then
      EndsWith(lowerName, ".jpg") || EndsWith(lowerName, ".jpeg")
      || EndsWith(lowerName, ".png") || EndsWith(lowerName, ".gif")
    else false
  }

  /** A record is listed when it matches the query and the type. */
  predicate Keeps(d: Document, query: string, fileType: string)
  {
    d.fileName.Some?
    && MatchesQuery(Lower(d.fileName.value), query)
    && MatchesType(Lower(d.fileName.value), fileType)
  }

  predicate AllNamed(documents: seq<Document>)
  {
    forall d :: d in documents ==> d.fileName.Some?
  }

  /** `filterDocuments`: walk the backing list in order and keep the
      matching records. A record with a null name throws. */
  function FilterDocuments(documents: seq<Document>, query: string, fileType: string): (r: Result<seq<Document>>)
    ensures r.Fail? <==> !AllNamed(documents)
    ensures r.Fail? ==> r.fault == NullPointer
    ensures r.Ok? ==> IsSubsequence(r.value, documents)
    ensures r.Ok? ==> forall d :: d in r.value <==> d in documents && Keeps(d, query, fileType)
  {
    if AllNamed(documents) then Ok(Filter(documents, d => Keeps(d, query, fileType)))
    else Fail(NullPointer)
  }

  // ---------------------------------------------------------------------
  // What the filter means
  // ---------------------------------------------------------------------

  // Each type code tests exactly the suffixes the icon chain tests for
  // its category. The chain returns a category only from that category's
  // own test, so one direction is immediate; for the other, a name ending
  // with an extension fails every earlier test of the chain.

  lemma PdfCodeIsPdfIcon(n: string)
    ensures MatchesType(n, "pdf") <==> Classify(n) == Pdf
  {
    if EndsWith(n, ".pdf") { ChainsFollowTable(n, PdfExt); }
  }

  lemma DocCodeIsWordIcon(n: string)
    ensures MatchesType(n, "doc") <==> Classify(n) == Word
  {
    if EndsWith(n, ".doc") { ChainsFollowTable(n, DocExt); }
    if EndsWith(n, ".docx") { ChainsFollowTable(n, DocxExt); }
  }

  lemma XlsCodeIsSpreadsheetIcon(n: string)
    ensures MatchesType(n, "xls") <==> Classify(n) == Spreadsheet
  {
    if EndsWith(n, ".xls") { ChainsFollowTable(n, XlsExt); }
    if EndsWith(n, ".xlsx") { ChainsFollowTable(n, XlsxExt); }
  }

  lemma PptCodeIsPresentationIcon(n: string)
    ensures MatchesType(n, "ppt") <==> Classify(n) == Presentation
  {
    if EndsWith(n, ".ppt") { ChainsFollowTable(n, PptExt); }
    if EndsWith(n, ".pptx") { ChainsFollowTable(n, PptxExt); }
  }

  lemma ImgCodeIsImageIcon(n: string)
    ensures MatchesType(n, "img") <==> Classify(n) == Image
  {
    if EndsWith(n, ".jpg") { ChainsFollowTable(n, JpgExt); }
    if EndsWith(n, ".jpeg") { ChainsFollowTable(n, JpegExt); }
    if EndsWith(n, ".png") { ChainsFollowTable(n, PngExt); }
    if EndsWith(n, ".gif") { ChainsFollowTable(n, GifExt); }
  }

  /** The filter's type test is the classifier's verdict: a type chip
      keeps exactly the names the adapter draws with that chip's icon, and
      every other chip keeps everything. */
  lemma MatchesTypeIffCategory(lowerName: string, checked: ChipId)
    ensures MatchesType(lowerName, SelectedFileType(checked)) <==>
      (ChipCategory(checked).None? || Classify(lowerName) == ChipCategory(checked).value)
  {
    match checked
    case PdfChip => PdfCodeIsPdfIcon(lowerName);
    case DocChip => DocCodeIsWordIcon(lowerName);
    case XlsChip => XlsCodeIsSpreadsheetIcon(lowerName);
    case PptChip => PptCodeIsPresentationIcon(lowerName);
    case ImgChip => ImgCodeIsImageIcon(lowerName);
    case _ =>
  }

  /** The category-level reading of the filter: a named record is listed
      exactly when its lower-cased name contains the lower-cased query (or
      the query is empty) and the chip is "all" or names its category. */
  lemma KeepsIff(d: Document, query: string, checked: ChipId)
    requires d.fileName.Some?
    ensures Keeps(d, query, SelectedFileType(checked)) <==>
      (query == [] || Contains(Lower(d.fileName.value), Lower(query)))
      && (ChipCategory(checked).None? || ClassifyName(d.fileName.value) == ChipCategory(checked).value)
  {
    MatchesTypeIffCategory(Lower(d.fileName.value), checked);
  }

  /** The empty query matches every name. */
  lemma EmptyQueryMatchesAll(lowerName: string)
    ensures MatchesQuery(lowerName, "")
  {
  }

  /** With the empty query and the "all" code the filter is the identity. */
  lemma {:induction false} FilterIdentity(documents: seq<Document>)
    requires AllNamed(documents)
    ensures FilterDocuments(documents, "", "all") == Ok(documents)
  {
    FilterAll(documents, d => Keeps(d, "", "all"));
  }

  /** A code outside the six keeps nothing. */
  lemma UnknownCodeKeepsNothing(documents: seq<Document>, query: string, fileType: string)
    requires AllNamed(documents)
    requires fileType !in {"pdf", "doc", "xls", "ppt", "img", "all"}
    ensures FilterDocuments(documents, query, fileType) == Ok([])
  {
    FilterNone(documents, d => Keeps(d, query, fileType));
  }

  /** Filtering a backing list split in two filters each part: the result
      keeps input order and never duplicates a record. */
  lemma FilterDocumentsConcat(a: seq<Document>, b: seq<Document>, query: string, fileType: string)
    requires AllNamed(a) && AllNamed(b)
    ensures FilterDocuments(a + b, query, fileType).Ok?
    ensures FilterDocuments(a + b, query, fileType).value
         == FilterDocuments(a, query, fileType).value + FilterDocuments(b, query, fileType).value
  {
    FilterConcat(a, b, d => Keeps(d, query, fileType));
  }

  // ---------------------------------------------------------------------
  // The screen
  // ---------------------------------------------------------------------

  datatype Screen = Screen(documents: seq<Document>, filtered: seq<Document>, emptyShown: bool)

  /** The data-change listener: rebuild the backing list from the snapshot;
      show the empty state when it is empty (leaving the filtered list as
      it was), otherwise re-filter with the current query and chip. */
  function OnDocumentsChanged(screen: Screen, snapshot: seq<Option<Document>>, query: string, checked: ChipId): (r: Result<Screen>)
    ensures r.Ok? ==> r.value.documents == Present(snapshot)
    ensures r.Ok? ==> (r.value.emptyShown <==> forall c :: c in snapshot ==> c.None?)
    ensures Present(snapshot) == [] ==> r.Ok? && r.value.filtered == screen.filtered
    ensures Present(snapshot) != [] ==>
      (r.Ok? <==> AllNamed(Present(snapshot)))
      && (r.Fail? ==> r.fault == NullPointer)
      && (r.Ok? ==> Ok(r.value.filtered) == FilterDocuments(Present(snapshot), query, SelectedFileType(checked)))
      && (r.Ok? ==> forall d :: d in r.value.filtered <==>
            Some(d) in snapshot && Keeps(d, query, SelectedFileType(checked)))
  {
    var documents := Present(snapshot);
    assert documents == [] <==> forall c :: c in snapshot ==> c.None? by {
      if documents != [] {
        assert Some(documents[0]) in snapshot;
      }
    }
    if documents == [] then Ok(Screen(documents, screen.filtered, true))
    else
      match FilterDocuments(documents, query, SelectedFileType(checked))
      case Ok(filtered) => Ok(Screen(documents, filtered, false))
      case Fail(f) => Fail(f)
  }

  /** The search box and chip listeners re-filter the backing list as it
      stands, whatever the empty state shows. */
  function OnFilterChanged(screen: Screen, query: string, checked: ChipId): (r: Result<Screen>)
    ensures r.Ok? <==> AllNamed(screen.documents)
    ensures r.Fail? ==> r.fault == NullPointer
    ensures r.Ok? ==> r.value.documents == screen.documents && r.value.emptyShown == screen.emptyShown
    ensures r.Ok? ==> Ok(r.value.filtered) == FilterDocuments(screen.documents, query, SelectedFileType(checked))
  {
    match FilterDocuments(screen.documents, query, SelectedFileType(checked))
    case Ok(filtered) => Ok(screen.(filtered := filtered))
    case Fail(f) => Fail(f)
  }

  /** Re-filtering with the same query and chip changes nothing: after a
      data change, the filter listeners show the same list. */
  lemma RefilterIsStable(screen: Screen, snapshot: seq<Option<Document>>, query: string, checked: ChipId)
    requires Present(snapshot) != []
    requires OnDocumentsChanged(screen, snapshot, query, checked).Ok?
    ensures OnFilterChanged(OnDocumentsChanged(screen, snapshot, query, checked).value, query, checked)
         == OnDocumentsChanged(screen, snapshot, query, checked)
  {
  }

  /** The empty state follows the backing list, not the filtered list: a
      non-empty store whose records all miss the query or the chip hides
      the empty state yet lists nothing. */
  lemma EmptyStateIgnoresFilter(screen: Screen, snapshot: seq<Option<Document>>, query: string, checked: ChipId)
    requires Present(snapshot) != [] && AllNamed(Present(snapshot))
    requires forall d :: d in Present(snapshot) ==> !Keeps(d, query, SelectedFileType(checked))
    ensures var r := OnDocumentsChanged(screen, snapshot, query, checked);
      r.Ok? && !r.value.emptyShown && r.value.filtered == []
  {
    FilterNone(Present(snapshot), d => Keeps(d, query, SelectedFileType(checked)));
  }
}

=== FILE: edit_profile.dfy ===
/** The edit-profile screen: it fills its inputs from the stored profile
    and saves the name, phone and bio back with a partial update. */
module EditProfile {
  import opened Wrappers
  import opened Text
  import opened Database
  import opened Accounts
  import opened Forms
  import Profile

  datatype EditForm = EditForm(fullName: string, email: string, phone: string, bio: string)

  /** Set an input only when the stored value is non-null and non-empty. */
  function FillIfPresent(current: string, stored: Option<string>): (r: string)
    ensures r == current || (stored.Some? && stored.value != [] && r == stored.value)
    ensures stored.Some? && stored.value != [] ==> r == stored.value
  {
    if stored.Some? && stored.value != [] then stored.value else current
  }

  /** `loadUserData`: the email input shows the account's email when it has
      one; when the profile exists, each of name, phone and bio is filled
      from its stored value unless that is null or empty. */
  function LoadUserData(form: EditForm, user: Option<User>, node: Option<Node>): (r: EditForm)
    ensures user.None? ==> r == form
    ensures user.Some? && user.value.email.Some? ==> r.email == user.value.email.value
    ensures r.email == form.email || (user.Some? && user.value.email.Some? && r.email == user.value.email.value)
    ensures user.Some? && node.Some? ==>
      r.fullName == FillIfPresent(form.fullName, GetString(node.value, "fullName"))
      && r.phone == FillIfPresent(form.phone, GetString(node.value, "phone"))
      && r.bio == FillIfPresent(form.bio, GetString(node.value, "bio"))
    ensures node.None? ==> r.fullName == form.fullName && r.phone == form.phone && r.bio == form.bio
    ensures r.fullName != form.fullName ==>
      user.Some? && node.Some? && r.fullName != [] && GetString(node.value, "fullName") == Some(r.fullName)
    ensures r.phone != form.phone ==>
      user.Some? && node.Some? && r.phone != [] && GetString(node.value, "phone") == Some(r.phone)
    ensures r.bio != form.bio ==>
      user.Some? && node.Some? && r.bio != [] && GetString(node.value, "bio") == Some(r.bio)
  {
    if user.None? then form
    else
      var withEmail := form.(email := user.value.email.GetOr(form.email));
      match node
      case None => withEmail
      case Some(n) =>
        withEmail.(
          fullName := FillIfPresent(form.fullName, GetString(n, "fullName")),
          phone := FillIfPresent(form.phone, GetString(n, "phone")),
          bio := FillIfPresent(form.bio, GetString(n, "bio")))
  }

  datatype SaveOutcome = NotAuthenticated | NameRequired | Update(changes: Node)

  /** The update map: exactly the three edited fields, as text. */
  function ChangesOf(fullName: string, phone: string, bio: string): (m: Node)
    ensures m.Keys == {"fullName", "phone", "bio"}
    ensures m["fullName"] == Text(fullName) && m["phone"] == Text(phone) && m["bio"] == Text(bio)
  {
    map["fullName" := Text(fullName), "phone" := Text(phone), "bio" := Text(bio)]
  }

  /** `saveProfile`: no user, or a name that trims to nothing, stops the
      save; otherwise the three trimmed values are sent as an update. */
  function SaveProfile(user: Option<User>, rawName: string, rawPhone: string, rawBio: string): (r: SaveOutcome)
    ensures user.None? <==> r == NotAuthenticated
    ensures user.Some? ==> (r == NameRequired <==> Trim(rawName) == [])
    ensures r.Update? ==> r.changes.Keys == {"fullName", "phone", "bio"}
    ensures r.Update? ==>
      r.changes["fullName"] == Text(Trim(rawName))
      && r.changes["phone"] == Text(Trim(rawPhone))
      && r.changes["bio"] == Text(Trim(rawBio))
  {
    if user.None? then NotAuthenticated
    else
      var fullName := Trim(rawName);
      if fullName == [] then NameRequired
      else Update(ChangesOf(fullName, Trim(rawPhone), Trim(rawBio)))
  }

  /** A name of blanks is refused; phone and bio may be blank. */
  lemma BlankNameRefused(user: User, rawName: string, rawPhone: string, rawBio: string)
    ensures SaveProfile(Some(user), rawName, rawPhone, rawBio) == NameRequired <==> AllBlank(rawName)
  {
    TrimEmptyIff(rawName);
  }

  /** The update touches only name, phone and bio: the stored email and
      picture, and anything else in the node, survive it. */
  lemma UpdateKeepsOtherFields(node: Node, user: User, rawName: string, rawPhone: string, rawBio: string)
    requires SaveProfile(Some(user), rawName, rawPhone, rawBio).Update?
    ensures var after := UpdateChildren(node, SaveProfile(Some(user), rawName, rawPhone, rawBio).changes);
      forall k :: k in node && k !in {"fullName", "phone", "bio"} ==> k in after && after[k] == node[k]
  {
  }

  /** After a save, the profile screen shows the trimmed name, and the
      trimmed bio or, when it trims to nothing, the placeholder. */
  lemma SavedProfileIsDisplayed(node: Node, user: User, rawName: string, rawPhone: string, rawBio: string)
    requires SaveProfile(Some(user), rawName, rawPhone, rawBio).Update?
    ensures var after := UpdateChildren(node, SaveProfile(Some(user), rawName, rawPhone, rawBio).changes);
      Profile.DisplayName(GetString(after, "fullName")) == Trim(rawName)
      && Profile.DisplayBio(GetString(after, "bio")) == (if Trim(rawBio) == [] then Profile.DefaultBio else Trim(rawBio))
  {
  }

  /** Loading a profile whose name is already trimmed and saving without
      edits writes the same name back. */
  lemma LoadThenSaveKeepsName(form: EditForm, user: User, node: Node)
    requires GetString(node, "fullName").Some?
    requires var name := GetString(node, "fullName").value;
      name != [] && !IsBlank(name[0]) && !IsBlank(name[|name| - 1])
    ensures var loaded := LoadUserData(form, Some(user), Some(node));
      var saved := SaveProfile(Some(user), loaded.fullName, loaded.phone, loaded.bio);
      saved.Update? && saved.changes["fullName"] == node["fullName"]
  {
    TrimFixed(GetString(node, "fullName").value);
  }
}

=== FILE: forms.dfy ===
/** What the form screens' `validateInputs` decide about trimmed input. */
module Forms {
  import opened Text

  /** `Accepted` lets the screen go on; the others stop it with a message. */
  datatype Verdict = Accepted | MissingField | PasswordTooShort

  /** A trimmed field counts as filled when it is not empty. */
  predicate Filled(field: string)
  {
    field != []
  }

  /** A raw field is filled after trimming exactly when it holds a
      character above U+0020. */
  lemma FilledAfterTrimIff(raw: string)
    ensures Filled(Trim(raw)) <==> !AllBlank(raw)
  {
    TrimEmptyIff(raw);
  }
}

=== FILE: home_activity.dfy ===
/** The two uploads of the main activity: a picked document, stored as a
    new record under the user's documents, and a picked profile picture,
    whose path is merged into the user's profile node.

    The content copy, the clock and the file picker are parameters: whether
    the copy succeeded, the milliseconds read for the fallback name and for
    the record's timestamp, and the display name the picker reported.
 */
module Uploads {
  import opened Wrappers
  import opened Text
  import opened Database
  import opened Documents
  import opened Classifier
  import opened Accounts
  import Profile
  import DocumentList

  // ---------------------------------------------------------------------
  // Document upload
  // ---------------------------------------------------------------------

  const FallbackPrefix: string := "unnamed_"
  const FallbackExtension: string := ".file"

  /** The name given to a document whose picker reported no display name:
      the clock's milliseconds in decimal, between the prefix and the
      extension. */
  function FallbackFileName(millis: nat): (name: string)
    ensures StartsWith(name, FallbackPrefix) && EndsWith(name, FallbackExtension)
    ensures |name| > |FallbackPrefix| + |FallbackExtension|
    ensures AllDigits(name[|FallbackPrefix|..|name| - |FallbackExtension|])
    ensures DecimalValue(name[|FallbackPrefix|..|name| - |FallbackExtension|]) == millis
  {
    var middle := DecimalString(millis);
    var name := FallbackPrefix + middle + FallbackExtension;
    assert name[|FallbackPrefix|..|name| - |FallbackExtension|] == middle;
    DecimalRoundTrip(millis);
    name
  }

  /** Uploads read at different milliseconds get different fallback names. */
  lemma FallbackNamesDistinct(a: nat, b: nat)
    requires a != b
    ensures FallbackFileName(a) != FallbackFileName(b)
  {
  }

  /** A fallback name has no recognised extension: it gets the generic
      icon, opens with the wildcard MIME type, and no type chip lists it. */
  lemma FallbackNameIsGeneric(millis: nat)
    ensures ClassifyName(FallbackFileName(millis)) == Other
    ensures MimeTypeOfName(FallbackFileName(millis)) == Wildcard
    ensures forall checked :: DocumentList.IsTypeChip(checked) ==>
      !DocumentList.MatchesType(Lower(FallbackFileName(millis)), DocumentList.SelectedFileType(checked))
  {
    var stem := FallbackPrefix + DecimalString(millis);
    var lowered := Lower(stem + FallbackExtension);
    LowerConcat(stem, FallbackExtension);
    FallbackExtensionLower();
    forall e: Extension ensures !EndsWith(lowered, Suffix(e)) {
      FallbackExtensionUnlisted(e);
      EndsWithConcat(Lower(stem), FallbackExtension, Suffix(e));
    }
    NoExtensionFallsThrough(lowered);
    forall checked | DocumentList.IsTypeChip(checked)
      ensures !DocumentList.MatchesType(lowered, DocumentList.SelectedFileType(checked))
    {
      DocumentList.MatchesTypeIffCategory(lowered, checked);
    }
  }

  lemma FallbackExtensionLower()
    ensures Lower(FallbackExtension) == FallbackExtension
  {
    LowerFixed(FallbackExtension);
  }

  lemma FallbackExtensionUnlisted(e: Extension)
    ensures |Suffix(e)| <= |FallbackExtension|
    ensures !EndsWith(FallbackExtension, Suffix(e))
  {
  }

  /** The metadata map of a new document record. */
  function DocumentMetadata(fileName: string, localPath: string, timestamp: int): (m: Node)
    ensures m.Keys == {"fileName", "localPath", "timestamp"}
    ensures forall k :: k in m ==> m[k] != Null
  {
    map["fileName" := Text(fileName), "localPath" := Text(localPath), "timestamp" := Number(timestamp)]
  }

  /** A stored metadata map reads back as the document it describes. */
  lemma MetadataRoundTrip(fileName: string, localPath: string, timestamp: int)
    ensures Decode(SetValue(DocumentMetadata(fileName, localPath, timestamp)))
         == Some(Document(Some(fileName), Some(localPath), timestamp))
  {
    var stored := SetValue(DocumentMetadata(fileName, localPath, timestamp));
    assert stored == DocumentMetadata(fileName, localPath, timestamp);
  }

  /** The name `saveDocument` stores: the picker's, or the fallback. */
  function UploadName(picked: Option<string>, millis: nat): (name: string)
    ensures picked.Some? ==> name == picked.value
    ensures picked.None? ==> name == FallbackFileName(millis)
  {
    picked.GetOr(FallbackFileName(millis))
  }

  /** The local copy of an uploaded document. */
  function DocumentPath(filesDir: string, fileName: string): (path: string)
    ensures EndsWith(path, fileName)
  {
    filesDir + "/documents/" + fileName
  }

  /** `saveDocument` followed by `saveDocumentToDatabase`: the record node
      written under a fresh key, or the reason nothing was written. */
  function SaveDocument(user: Option<User>, picked: Option<string>, copyOk: bool, filesDir: string,
                        nameMillis: nat, saveMillis: int): (r: Result<Node>)
    ensures user.None? ==> r == Fail(NoUser)
    ensures user.Some? && !copyOk ==> r == Fail(IoFailure)
    ensures r.Ok? <==> user.Some? && copyOk
    ensures r.Ok? ==> r.value.Keys == {"fileName", "localPath", "timestamp"}
    ensures r.Ok? ==> Decode(r.value) == Some(Document(
      Some(UploadName(picked, nameMillis)),
      Some(DocumentPath(filesDir, UploadName(picked, nameMillis))),
      saveMillis))
  {
    if user.None? then Fail(NoUser)
    else if !copyOk then Fail(IoFailure)
    else
      var name := UploadName(picked, nameMillis);
      MetadataRoundTrip(name, DocumentPath(filesDir, name), saveMillis);
      Ok(SetValue(DocumentMetadata(name, DocumentPath(filesDir, name), saveMillis)))
  }

  // ---------------------------------------------------------------------
  // Profile picture upload
  // ---------------------------------------------------------------------

  /** "User " and the first five characters of the uid; `substring(0, 5)`
      throws on a shorter uid. */
  function DefaultFullName(uid: string): (r: Result<string>)
    ensures r.Fail? <==> |uid| < 5
    ensures r.Fail? ==> r.fault == IndexOutOfBounds
    ensures r.Ok? ==> StartsWith(r.value, "User ") && |r.value| == 10 && r.value[5..] == uid[..5]
  {
    if |uid| < 5 then Fail(IndexOutOfBounds) else Ok("User " + uid[..5])
  }

  /** The map `saveProfileToDatabase` builds before `setValue`: the four
      profile fields, each stored value kept and each missing one
      defaulted; only the email can be null. */
  function ProfileMap(user: User, existing: Option<Node>, localPath: string): (r: Result<Node>)
    ensures r.Fail? <==> |user.uid| < 5 && (existing.None? || GetString(existing.value, "fullName").None?)
    ensures r.Fail? ==> r.fault == IndexOutOfBounds
    ensures r.Ok? ==> r.value.Keys == {"fullName", "email", "phone", "profilePicture"}
    ensures r.Ok? ==> r.value["profilePicture"] == Text(localPath)
    ensures r.Ok? ==> r.value["fullName"] != Null && r.value["phone"] != Null
    ensures r.Ok? ==> (r.value["email"] != Null <==>
      (existing.Some? && GetString(existing.value, "email").Some?) || user.email.Some?)
    ensures r.Ok? && existing.Some? ==> forall k :: k in ["fullName", "email", "phone"] && GetString(existing.value, k).Some? ==>
      r.value[k] == existing.value[k]
    ensures r.Ok? && existing.Some? && GetString(existing.value, "fullName").None? ==>
      DefaultFullName(user.uid).Ok? && r.value["fullName"] == Text(DefaultFullName(user.uid).value)
    ensures r.Ok? && existing.Some? && GetString(existing.value, "email").None? && user.email.Some? ==>
      r.value["email"] == Text(user.email.value)
    ensures r.Ok? && existing.Some? && GetString(existing.value, "phone").None? ==>
      r.value["phone"] == Text("")
  {
    match existing
    case Some(node) =>
      var fullName := GetString(node, "fullName");
      var email := GetString(node, "email");
      var phone := GetString(node, "phone");
      if fullName.None? && DefaultFullName(user.uid).Fail? then Fail(IndexOutOfBounds)
      else
        Ok(map[
          "fullName" := Text(if fullName.Some? then fullName.value else DefaultFullName(user.uid).value),
          "email" := if email.Some? then Text(email.value) else TextOrNull(user.email),
          "phone" := Text(if phone.Some? then phone.value else ""),
          "profilePicture" := Text(localPath)])
    case None =>
      match DefaultFullName(user.uid)
      case Fail(f) => Fail(f)
      case Ok(name) =>
        Ok(map[
          "fullName" := Text(name),
          "email" := TextOrNull(user.email),
          "phone" := Text(""),
          "profilePicture" := Text(localPath)])
  }

  /** The profile node after the picture upload. */
  function SaveProfileToDatabase(user: Option<User>, existing: Option<Node>, localPath: string): (r: Result<Node>)
    ensures user.None? ==> r == Fail(NoUser)
    ensures user.Some? ==>
      (r.Fail? <==> |user.value.uid| < 5 && (existing.None? || GetString(existing.value, "fullName").None?))
    ensures r.Fail? && user.Some? ==> r.fault == IndexOutOfBounds
    ensures r.Ok? ==> r.value.Keys <= {"fullName", "email", "phone", "profilePicture"}
    ensures r.Ok? ==> "profilePicture" in r.value && r.value["profilePicture"] == Text(localPath)
    ensures r.Ok? ==> "fullName" in r.value && "phone" in r.value
    ensures r.Ok? ==> ("email" in r.value <==>
      (existing.Some? && GetString(existing.value, "email").Some?) || user.value.email.Some?)
    ensures r.Ok? && existing.Some? ==> forall k :: k in ["fullName", "email", "phone"] && GetString(existing.value, k).Some? ==>
      k in r.value && r.value[k] == existing.value[k]
    ensures r.Ok? && existing.Some? && GetString(existing.value, "fullName").None? ==>
      DefaultFullName(user.value.uid).Ok? && r.value["fullName"] == Text(DefaultFullName(user.value.uid).value)
    ensures r.Ok? && existing.Some? && GetString(existing.value, "email").None? && user.value.email.Some? ==>
      r.value["email"] == Text(user.value.email.value)
    ensures r.Ok? && existing.Some? && GetString(existing.value, "phone").None? ==>
      r.value["phone"] == Text("")
  {
    if user.None? then Fail(NoUser)
    else
      match ProfileMap(user.value, existing, localPath)
      case Fail(f) => Fail(f)
      case Ok(m) => Ok(SetValue(m))
  }

  /** Without a stored profile the upload writes what it writes for an
      empty one: both branches of the merge agree. */
  lemma MissingProfileIsEmptyProfile(user: User, localPath: string)
    ensures SaveProfileToDatabase(Some(user), None, localPath) == SaveProfileToDatabase(Some(user), Some(map[]), localPath)
  {
  }

  /** A freshly defaulted profile: the default name, the account's email
      when there is one, an empty phone, and the picture. */
  lemma DefaultsForNewProfile(user: User, localPath: string)
    requires |user.uid| >= 5
    ensures SaveProfileToDatabase(Some(user), None, localPath).Ok?
    ensures var node := SaveProfileToDatabase(Some(user), None, localPath).value;
      node["fullName"] == Text(DefaultFullName(user.uid).value)
      && node["phone"] == Text("")
      && ("email" in node <==> user.email.Some?)
      && (user.email.Some? ==> node["email"] == Text(user.email.value))
  {
  }

  /** The picture upload replaces the whole node, so a stored bio is lost
      and the profile screen falls back to its placeholder bio. */
  lemma PictureUploadDropsBio(user: User, existing: Node, localPath: string,
                              view: Profile.ProfileView, fileExists: string -> bool)
    requires SaveProfileToDatabase(Some(user), Some(existing), localPath).Ok?
    ensures "bio" !in SaveProfileToDatabase(Some(user), Some(existing), localPath).value
    ensures Profile.LoadProfile(view, Some(user), Some(SaveProfileToDatabase(Some(user), Some(existing), localPath).value),
                                fileExists).userBio == Profile.DefaultBio
  {
  }
}

=== FILE: home_fragment.dfy ===
/** The home screen: the total document count, the recency-sorted backing
    list, and the short list of recent documents that the search box
    replaces with its matches.

    Each change notification rebuilds the backing list from the snapshot
    (null children skipped), sorts it newest first with a stable sort, sets
    the total to the number of records kept, and re-applies the current
    query: the empty query shows the three newest records, any other query
    shows every match in the sorted list.
 */
module Home {
  import opened Wrappers
  import opened Text
  import opened Seqs
  import opened Documents

  /** The number of records the home screen shows without a query. */
  const RecentCount: nat := 3

  // ---------------------------------------------------------------------
  // Stable sort by timestamp, newest first
  // ---------------------------------------------------------------------

  predicate SortedByRecency(s: seq<Document>)
  {
    forall i, j :: 0 <= i < j < |s| ==> s[i].timestamp >= s[j].timestamp
  }

  /** The records of `s` carrying timestamp `t`, in their order in `s`. */
  function AtTime(s: seq<Document>, t: int): seq<Document>
  {
    Filter(s, (d: Document) => d.timestamp == t)
  }

  /** `r` keeps the relative order of `s` among records with equal
      timestamps: what a stable sort promises. */
  ghost predicate SameTieOrder(r: seq<Document>, s: seq<Document>)
  {
    forall t :: AtTime(r, t) == AtTime(s, t)
  }

  function Single(d: Document, t: int): seq<Document>
  {
    if d.timestamp == t then [d] else []
  }

  lemma AtTimeCons(d: Document, s: seq<Document>, t: int)
    ensures AtTime([d] + s, t) == Single(d, t) + AtTime(s, t)
  {
    assert ([d] + s)[1..] == s;
  }

  /** Place `d` before the first record that is not newer than it. */
  function Insert(d: Document, s: seq<Document>): (r: seq<Document>)
    requires SortedByRecency(s)
    ensures SortedByRecency(r)
    ensures multiset(r) == multiset(s) + multiset{d}
    ensures |r| == |s| + 1
    ensures r[0] == d || (s != [] && r[0] == s[0])
  {
    if s == [] then [d]
    else if d.timestamp >= s[0].timestamp then [d] + s
    else
      assert s == [s[0]] + s[1..];
      [s[0]] + Insert(d, s[1..])
  }

  /** `Collections.sort` with `Long.compare(d2.timestamp, d1.timestamp)`:
      newest first, ties in input order. */
  function SortByRecency(s: seq<Document>): (r: seq<Document>)
    ensures SortedByRecency(r)
    ensures multiset(r) == multiset(s)
    ensures |r| == |s|
  {
    if s == [] then []
    else
      assert s == [s[0]] + s[1..];
      Insert(s[0], SortByRecency(s[1..]))
  }

  /** Inserting keeps every tie group in order, with the inserted record
      ahead of the equal-timestamp records already there. */
  lemma {:induction false} InsertKeepsTieOrder(d: Document, s: seq<Document>, t: int)
    requires SortedByRecency(s)
    ensures AtTime(Insert(d, s), t) == AtTime([d] + s, t)
    decreases |s|
  {
    if s != [] && d.timestamp < s[0].timestamp {
      InsertKeepsTieOrder(d, s[1..], t);
      AtTimeCons(s[0], Insert(d, s[1..]), t);
      AtTimeCons(d, s[1..], t);
      AtTimeCons(d, s, t);
      assert s == [s[0]] + s[1..];
      AtTimeCons(s[0], s[1..], t);
    }
  }

  /** The sort is stable. */
  lemma {:induction false} SortKeepsTieOrder(s: seq<Document>)
    ensures SameTieOrder(SortByRecency(s), s)
    decreases |s|
  {
    if s != [] {
      SortKeepsTieOrder(s[1..]);
      forall t ensures AtTime(SortByRecency(s), t) == AtTime(s, t) {
        var sorted := SortByRecency(s[1..]);
        InsertKeepsTieOrder(s[0], sorted, t);
        AtTimeCons(s[0], sorted, t);
        assert s == [s[0]] + s[1..];
        AtTimeCons(s[0], s[1..], t);
      }
    }
  }

  /** Two newest-first sequences with the same tie groups are equal. */
  lemma {:induction false} SortedTieOrderUnique(a: seq<Document>, b: seq<Document>)
    requires SortedByRecency(a) && SortedByRecency(b)
    requires SameTieOrder(a, b)
    ensures a == b
    decreases |a|
  {
    if a == [] || b == [] {
      if a != [] {
        assert a == [a[0]] + a[1..];
        AtTimeCons(a[0], a[1..], a[0].timestamp);
      }
      if b != [] {
        assert b == [b[0]] + b[1..];
        AtTimeCons(b[0], b[1..], b[0].timestamp);
      }
    } else {
      assert a == [a[0]] + a[1..];
      assert b == [b[0]] + b[1..];
      var ta, tb := a[0].timestamp, b[0].timestamp;
      AtTimeCons(a[0], a[1..], ta);
      AtTimeCons(b[0], b[1..], tb);
      assert a[0] in AtTime(b, ta);
      assert b[0] in AtTime(a, tb);
      assert ta == tb;
      AtTimeCons(a[0], a[1..], ta);
      AtTimeCons(b[0], b[1..], ta);
      forall t ensures AtTime(a[1..], t) == AtTime(b[1..], t) {
        AtTimeCons(a[0], a[1..], t);
        AtTimeCons(b[0], b[1..], t);
      }
      SortedTieOrderUnique(a[1..], b[1..]);
    }
  }

  /** Any arrangement that is newest first and keeps ties in input order
      is the sort's result: the backing list is exactly what a stable
      descending sort such as `Collections.sort` produces. */
  lemma StableSortIsUnique(s: seq<Document>, r: seq<Document>)
    requires SortedByRecency(r)
    requires SameTieOrder(r, s)
    ensures r == SortByRecency(s)
  {
    SortKeepsTieOrder(s);
    SortedTieOrderUnique(r, SortByRecency(s));
  }

  // ---------------------------------------------------------------------
  // Recent list and search
  // ---------------------------------------------------------------------

  /** The first `min(3, n)` records of the sorted list. */
  function Recent(sorted: seq<Document>): (r: seq<Document>)
    ensures |r| == Min(RecentCount, |sorted|)
    ensures forall i :: 0 <= i < |r| ==> r[i] == sorted[i]
    ensures IsSubsequence(r, sorted)
  {
    PrefixIsSubsequence(sorted, Min(RecentCount, |sorted|));
    Take(sorted, RecentCount)
  }

  /** Nothing left out of the recent list is newer than anything in it. */
  lemma RecentAreNewest(sorted: seq<Document>)
    requires SortedByRecency(sorted)
    ensures forall i, j :: 0 <= i < |Recent(sorted)| <= j < |sorted| ==>
      sorted[j].timestamp <= Recent(sorted)[i].timestamp
  {
  }

  predicate NameContains(d: Document, query: string)
  {
    d.fileName.Some? && Contains(Lower(d.fileName.value), Lower(query))
  }

  /** The home screen's `filterDocuments`: the empty query shows the
      recent list; another query shows every match of the whole sorted
      list and throws on a record with a null name. */
  function FilterHome(sorted: seq<Document>, query: string): (r: Result<seq<Document>>)
    ensures query == [] ==> r == Ok(Recent(sorted))
    ensures query != [] ==>
      (r.Ok? <==> forall d :: d in sorted ==> d.fileName.Some?)
      && (r.Fail? ==> r.fault == NullPointer)
    ensures r.Ok? ==> IsSubsequence(r.value, sorted)
    ensures r.Ok? && query != [] ==> forall d :: d in r.value <==> d in sorted && NameContains(d, query)
  {
    if query == [] then Ok(Recent(sorted))
    else if forall d :: d in sorted ==> d.fileName.Some? then Ok(Filter(sorted, (d: Document) => NameContains(d, query)))
    else Fail(NullPointer)
  }

  /** A query is not capped at three: four matching records are all
      shown. */
  lemma QueryIsNotCapped(sorted: seq<Document>, query: string)
    requires query != []
    requires forall d :: d in sorted ==> NameContains(d, query)
    ensures FilterHome(sorted, query) == Ok(sorted)
  {
    FilterAll(sorted, (d: Document) => NameContains(d, query));
  }

  /** On one record a query either keeps it or drops it. */
  lemma FilterHomeSingle(d: Document, query: string)
    requires query != [] && d.fileName.Some?
    ensures FilterHome([d], query) == Ok(if NameContains(d, query) then [d] else [])
  {
    var p := (x: Document) => NameContains(x, query);
    assert [d][1..] == [];
    assert Filter([d], p) == (if p(d) then [d] else []);
  }

  /** Searching a list split in two searches each part, so together with
      the one-record case the matches are exactly the matching records, in
      sorted order and with every duplicate kept. */
  lemma FilterHomeConcat(a: seq<Document>, b: seq<Document>, query: string)
    requires query != []
    requires forall d :: d in a + b ==> d.fileName.Some?
    ensures FilterHome(a, query).Ok? && FilterHome(b, query).Ok?
    ensures FilterHome(a + b, query) == Ok(FilterHome(a, query).value + FilterHome(b, query).value)
  {
    FilterConcat(a, b, (d: Document) => NameContains(d, query));
  }

  // ---------------------------------------------------------------------
  // The screen
  // ---------------------------------------------------------------------

  datatype Screen = Screen(documents: seq<Document>, shown: seq<Document>, total: nat, shownCount: nat)

  /** The data-change listener of the home screen. */
  function OnDocumentsChanged(snapshot: seq<Option<Document>>, query: string): (r: Result<Screen>)
    ensures r.Ok? ==> multiset(r.value.documents) == multiset(Present(snapshot))
    ensures r.Ok? ==> SortedByRecency(r.value.documents)
    ensures r.Ok? ==> SameTieOrder(r.value.documents, Present(snapshot))
    ensures r.Ok? ==> r.value.total == |r.value.documents| == |Present(snapshot)|
    ensures r.Ok? ==> r.value.shownCount == |r.value.shown|
    ensures r.Ok? ==> Ok(r.value.shown) == FilterHome(r.value.documents, query)
    ensures r.Fail? <==> query != [] && exists d :: d in Present(snapshot) && d.fileName.None?
    ensures r.Fail? ==> r.fault == NullPointer
    ensures query == [] ==> r.Ok? && |r.value.shown| == Min(RecentCount, |Present(snapshot)|)
  {
    var documents := SortByRecency(Present(snapshot));
    SortKeepsTieOrder(Present(snapshot));
    assert forall d :: d in documents <==> d in Present(snapshot) by {
      assert forall d :: d in documents <==> d in multiset(documents);
      assert forall d :: d in Present(snapshot) <==> d in multiset(Present(snapshot));
    }
    match FilterHome(documents, query)
    case Ok(shown) => Ok(Screen(documents, shown, |Present(snapshot)|, |shown|))
    case Fail(f) => Fail(f)
  }

  /** Two records with the same timestamp keep their snapshot order, ahead
      of an older one. */
  lemma TiesKeepSnapshotOrder(a: Document, b: Document, c: Document)
    requires a.timestamp == b.timestamp == 100 && c.timestamp == 50
    ensures SortByRecency([a, b, c]) == [a, b, c]
  {
    assert [a, b, c][1..] == [b, c];
    assert [b, c][1..] == [c];
  }
}

=== FILE: profile_fragment.dfy ===
/** The profile screen: the user's name, email, bio and picture, and the
    document statistics (how many records are stored and how many bytes
    their local files take).

    The file system is a parameter: `fileExists` and `fileLength` stand for
    `File.exists()` and `File.length()` on a path.
 */
module Profile {
  import opened Wrappers
  import opened Database
  import opened Seqs
  import opened Documents
  import opened Accounts

  // ---------------------------------------------------------------------
  // Document statistics
  // ---------------------------------------------------------------------

  /** The bytes one record adds to the total: the length of its local file
      when the record has a text `localPath` and that file exists. */
  function Contribution(child: Node, fileExists: string -> bool, fileLength: string -> nat): nat
  {
    match GetString(child, "localPath")
    case Some(path) => if fileExists(path) then fileLength(path) else 0
    case None => 0
  }

  /** The running total after the given records, accumulated front to back. */
  function TotalSize(children: seq<Node>, fileExists: string -> bool, fileLength: string -> nat): (r: nat)
    ensures (forall i :: 0 <= i < |children| ==> Contribution(children[i], fileExists, fileLength) == 0) ==> r == 0
    ensures forall i :: 0 <= i < |children| ==> Contribution(children[i], fileExists, fileLength) <= r
  {
    if children == [] then 0
    else
      var front := children[..|children| - 1];
      assert forall i :: 0 <= i < |front| ==> front[i] == children[i];
      TotalSize(front, fileExists, fileLength) + Contribution(children[|children| - 1], fileExists, fileLength)
  }

  /** `loadDocumentStats`' listener body: count every child record and add
      up the lengths of the local files that exist. */
  method LoadDocumentStats(children: seq<Node>, fileExists: string -> bool, fileLength: string -> nat)
    returns (count: nat, totalSize: nat)
    ensures count == |children|
    ensures totalSize == TotalSize(children, fileExists, fileLength)
  {
    count, totalSize := 0, 0;
    var i := 0;
    while i < |children|
      invariant 0 <= i <= |children|
      invariant count == i
      invariant totalSize == TotalSize(children[..i], fileExists, fileLength)
    {
      count := count + 1;
      var localPath := GetString(children[i], "localPath");
      if localPath.Some? {
        if fileExists(localPath.value) {
          totalSize := totalSize + fileLength(localPath.value);
        }
      }
      assert children[..i + 1][..i] == children[..i];
      i := i + 1;
    }
    assert children[..i] == children;
  }

  /** The paths of the records whose local file exists, in snapshot order. */
  function ExistingFiles(children: seq<Node>, fileExists: string -> bool): (r: seq<string>)
    ensures |r| <= |children|
    ensures forall p :: p in r ==> fileExists(p)
  {
    if children == [] then []
    else
      var rest := ExistingFiles(children[1..], fileExists);
      match GetString(children[0], "localPath")
      case Some(path) => if fileExists(path) then [path] + rest else rest
      case None => rest
  }

  function SumLengths(paths: seq<string>, fileLength: string -> nat): nat
  {
    if paths == [] then 0 else fileLength(paths[0]) + SumLengths(paths[1..], fileLength)
  }

  /** The statistics' total splits over a split of the records. */
  lemma {:induction false} TotalSizeConcat(a: seq<Node>, b: seq<Node>, fileExists: string -> bool, fileLength: string -> nat)
    ensures TotalSize(a + b, fileExists, fileLength)
         == TotalSize(a, fileExists, fileLength) + TotalSize(b, fileExists, fileLength)
    decreases |b|
  {
    if b == [] {
      assert a + b == a;
    } else {
      var front := b[..|b| - 1];
      assert (a + b)[..|a + b| - 1] == a + front;
      assert (a + b)[|a + b| - 1] == b[|b| - 1];
      TotalSizeConcat(a, front, fileExists, fileLength);
    }
  }

  /** The total is the sum of the lengths of exactly the existing files
      named by a record: records without a text path, and paths whose file
      is missing, add nothing. */
  lemma {:induction false} TotalSizeIsSumOfExistingFiles(children: seq<Node>, fileExists: string -> bool, fileLength: string -> nat)
    ensures TotalSize(children, fileExists, fileLength) == SumLengths(ExistingFiles(children, fileExists), fileLength)
    decreases |children|
  {
    if children != [] {
      TotalSizeIsSumOfExistingFiles(children[1..], fileExists, fileLength);
      assert children == [children[0]] + children[1..];
      TotalSizeConcat([children[0]], children[1..], fileExists, fileLength);
      assert [children[0]][..0] == [];
    }
  }

  /** Adding a record never lowers either statistic. */
  lemma StatsMonotone(children: seq<Node>, child: Node, fileExists: string -> bool, fileLength: string -> nat)
    ensures TotalSize(children + [child], fileExists, fileLength) >= TotalSize(children, fileExists, fileLength)
    ensures |children + [child]| == |children| + 1
  {
    assert (children + [child])[..|children|] == children;
  }

  /** The count equals the home screen's total exactly when every record
      reads as a document. A child of a snapshot exists, so Firebase either
      maps it or throws; the two can differ only through a malformed record,
      which `Decode` reads as null where the mapper would throw. */
  lemma CountMatchesHomeIffAllReadable(children: seq<Node>)
    ensures |Present(Map(children, Decode))| == |children| <==>
      forall i :: 0 <= i < |children| ==> Decode(children[i]).Some?
  {
    PresentLengthIff(Map(children, Decode));
  }

  // ---------------------------------------------------------------------
  // Profile display
  // ---------------------------------------------------------------------

  const DefaultName: string := "User"
  const DefaultBio: string := "No bio added yet"

  /** The name shown for a stored `fullName`; also the home screen's
      greeting. */
  function DisplayName(stored: Option<string>): (r: string)
    ensures stored.Some? && stored.value != [] ==> r == stored.value
    ensures stored.None? || stored.value == [] ==> r == DefaultName
    ensures r != []
  {
    if stored.Some? && stored.value != [] then stored.value else DefaultName
  }

  function DisplayBio(stored: Option<string>): (r: string)
    ensures stored.Some? && stored.value != [] ==> r == stored.value
    ensures stored.None? || stored.value == [] ==> r == DefaultBio
    ensures r != []
  {
    if stored.Some? && stored.value != [] then stored.value else DefaultBio
  }

  /** The email shown: the stored one when non-empty, otherwise the
      account's, otherwise whatever the field already showed. */
  function DisplayEmail(stored: Option<string>, authEmail: Option<string>, current: string): (r: string)
    ensures stored.Some? && stored.value != [] ==> r == stored.value
    ensures (stored.None? || stored.value == []) && authEmail.Some? ==> r == authEmail.value
    ensures (stored.None? || stored.value == []) && authEmail.None? ==> r == current
  {
    if stored.Some? && stored.value != [] then stored.value
    else if authEmail.Some? then authEmail.value
    else current
  }

  datatype ProfileView = ProfileView(userName: string, userEmail: string, userBio: string, picture: Option<string>)

  /** `loadProfile`: with no signed-in user, or no stored profile, the view
      is left as it was; otherwise each field is filled with its fallback
      rule and the picture is shown when its file exists. */
  function LoadProfile(view: ProfileView, user: Option<User>, node: Option<Node>, fileExists: string -> bool): (r: ProfileView)
    ensures user.None? || node.None? ==> r == view
    ensures user.Some? && node.Some? ==>
      r.userName == DisplayName(GetString(node.value, "fullName"))
      && r.userEmail == DisplayEmail(GetString(node.value, "email"), user.value.email, view.userEmail)
      && r.userBio == DisplayBio(GetString(node.value, "bio"))
    ensures r.picture != view.picture ==>
      user.Some? && node.Some? && r.picture.Some? && r.picture == GetString(node.value, "profilePicture")
      && fileExists(r.picture.value)
    ensures (user.Some? && node.Some? && GetString(node.value, "profilePicture").Some?
             && fileExists(GetString(node.value, "profilePicture").value)) ==>
      r.picture == GetString(node.value, "profilePicture")
  {
    if user.None? || node.None? then view
    else
      var n := node.value;
      var picture := GetString(n, "profilePicture");
      ProfileView(
        DisplayName(GetString(n, "fullName")),
        DisplayEmail(GetString(n, "email"), user.value.email, view.userEmail),
        DisplayBio(GetString(n, "bio")),
        if picture.Some? && fileExists(picture.value) then picture else view.picture)
  }

  /** A profile written without a bio (as the picture upload does) shows
      the placeholder bio. */
  lemma MissingBioShowsPlaceholder(view: ProfileView, user: User, node: Node, fileExists: string -> bool)
    requires "bio" !in node
    ensures LoadProfile(view, Some(user), Some(node), fileExists).userBio == DefaultBio
  {
  }
}

=== FILE: recent_adapter.dfy ===
/** The adapter that draws a document row and opens its file on a tap.

    The row's icon comes from the lower-cased file name; a tap checks that
    the local file exists and then asks the system to view it with the MIME
    type of the lower-cased name. Both read the name without a null check.
 */
module RecentAdapter {
  import opened Wrappers
  import opened Text
  import opened Documents
  import opened Classifier
  import opened DocumentList

  /** The icon `bind` sets; a record with a null name throws. */
  function Icon(d: Document): (r: Result<Category>)
    ensures r.Fail? <==> d.fileName.None?
    ensures r.Fail? ==> r.fault == NullPointer
    ensures r.Ok? ==> r.value == ClassifyName(d.fileName.value)
  {
    match d.fileName
    case Some(name) => Ok(Classify(Lower(name)))
    case None => Fail(NullPointer)
  }

  /** What a tap does: nothing when the file is missing, otherwise a view
      request for the file with a MIME type. */
  datatype OpenAction = NothingToOpen | View(path: string, mimeType: string)

  /** `openFile`: `new File(null)` throws on a null path; a missing file
      ends the handler; the MIME lookup then throws on a null name. */
  function OpenFile(d: Document, fileExists: string -> bool): (r: Result<OpenAction>)
    ensures d.localPath.None? ==> r == Fail(NullPointer)
    ensures d.localPath.Some? && !fileExists(d.localPath.value) ==> r == Ok(NothingToOpen)
    ensures d.localPath.Some? && fileExists(d.localPath.value) ==>
      (r.Ok? <==> d.fileName.Some?)
      && (r.Ok? ==> r.value == View(d.localPath.value, MimeTypeOfName(d.fileName.value)))
      && (r.Fail? ==> r.fault == NullPointer)
  {
    match d.localPath
    case None => Fail(NullPointer)
    case Some(path) =>
      if !fileExists(path) then Ok(NothingToOpen)
      else match d.fileName
        case None => Fail(NullPointer)
        case Some(name) => Ok(View(path, MimeType(Lower(name))))
  }

  /** A file is viewed as an image exactly when its row shows the image
      icon; a name without a recognised extension is offered with the wildcard type and
      drawn with the generic icon. */
  lemma OpenedTypeMatchesIcon(d: Document, fileExists: string -> bool)
    requires OpenFile(d, fileExists).Ok? && OpenFile(d, fileExists).value.View?
    ensures Icon(d).Ok?
    ensures StartsWith(OpenFile(d, fileExists).value.mimeType, "image/") <==> Icon(d).value == Image
    ensures OpenFile(d, fileExists).value.mimeType == Wildcard <==> Icon(d).value == Other
  {
    ImageMimeIffImageIcon(Lower(d.fileName.value));
    FallbackIffNoExtension(Lower(d.fileName.value));
  }

  /** A tap on a record whose file is gone requests nothing, whatever its
      name. */
  lemma MissingFileOpensNothing(d: Document, fileExists: string -> bool)
    requires d.localPath.Some? && !fileExists(d.localPath.value)
    ensures OpenFile(d, fileExists) == Ok(NothingToOpen)
  {
  }

  /** The document list's type chips agree with this adapter's icons:
      every record the filter keeps under a type chip gets that chip's
      icon. */
  lemma FilteredRecordsShowChipIcon(documents: seq<Document>, query: string, checked: ChipId)
    requires FilterDocuments(documents, query, SelectedFileType(checked)).Ok?
    requires IsTypeChip(checked)
    ensures forall d :: d in FilterDocuments(documents, query, SelectedFileType(checked)).value ==>
      Icon(d) == Ok(ChipCategory(checked).value)
  {
    forall d | d in FilterDocuments(documents, query, SelectedFileType(checked)).value
      ensures Icon(d) == Ok(ChipCategory(checked).value)
    {
      KeepsIff(d, query, checked);
    }
  }
}

=== FILE: seqs.dfy ===
/** Order-preserving selection over sequences.

    Both document screens build their visible list by walking the backing
    list front to back and appending the records a test accepts; `Filter`
    is that loop, and `IsSubsequence` is what it guarantees about order.
 */
module Seqs {

  /** `xs` can be obtained from `ys` by deleting elements, without
      reordering or duplicating any. */
  predicate IsSubsequence<T(==)>(xs: seq<T>, ys: seq<T>)
    decreases |ys|
  {
    xs == [] ||
    (ys != [] &&
     ((xs[0] == ys[0] && IsSubsequence(xs[1..], ys[1..])) || IsSubsequence(xs, ys[1..])))
  }

  /** Keep, in order, the elements `p` accepts. */
  function Filter<T(==)>(xs: seq<T>, p: T -> bool): (r: seq<T>)
    ensures |r| <= |xs|
    ensures IsSubsequence(r, xs)
    ensures forall x :: x in r ==> x in xs && p(x)
    ensures forall x :: x in xs && p(x) ==> x in r
  {
    if xs == [] then []
    else if p(xs[0]) then [xs[0]] + Filter(xs[1..], p)
    else Filter(xs[1..], p)
  }

  /** Filtering a concatenation filters each part: together with the
      one-element case this pins `Filter` down completely. */
  lemma {:induction false} FilterConcat<T>(a: seq<T>, b: seq<T>, p: T -> bool)
    ensures Filter(a + b, p) == Filter(a, p) + Filter(b, p)
    decreases |a|
  {
    if a == [] {
      assert a + b == b;
    } else {
      assert (a + b)[1..] == a[1..] + b;
      FilterConcat(a[1..], b, p);
    }
  }

  /** A predicate that accepts everything leaves the sequence unchanged. */
  lemma {:induction false} FilterAll<T>(xs: seq<T>, p: T -> bool)
    requires forall x :: x in xs ==> p(x)
    ensures Filter(xs, p) == xs
    decreases |xs|
  {
    if xs != [] {
      assert xs[0] in xs;
      assert forall x :: x in xs[1..] ==> x in xs;
      FilterAll(xs[1..], p);
    }
  }

  /** A predicate that accepts nothing yields the empty sequence. */
  lemma FilterNone<T>(xs: seq<T>, p: T -> bool)
    requires forall x :: x in xs ==> !p(x)
    ensures Filter(xs, p) == []
  {
  }

  /** Every prefix is a subsequence. */
  lemma {:induction false} PrefixIsSubsequence<T>(xs: seq<T>, n: nat)
    requires n <= |xs|
    ensures IsSubsequence(xs[..n], xs)
    decreases n
  {
    if n > 0 {
      assert xs[..n][1..] == xs[1..][..n - 1];
      PrefixIsSubsequence(xs[1..], n - 1);
    }
  }

  function Min(a: int, b: int): int
  {
    if a <= b then a else b
  }

  /** The first `min(n, |xs|)` elements. */
  function Take<T>(xs: seq<T>, n: nat): (r: seq<T>)
    ensures |r| == Min(n, |xs|)
    ensures forall i :: 0 <= i < |r| ==> r[i] == xs[i]
  {
    xs[..Min(n, |xs|)]
  }

  function Map<A, B>(xs: seq<A>, f: A -> B): (r: seq<B>)
    ensures |r| == |xs|
    ensures forall i :: 0 <= i < |xs| ==> r[i] == f(xs[i])
  {
    if xs == [] then [] else [f(xs[0])] + Map(xs[1..], f)
  }
}

=== FILE: sign_in.dfy ===
/** The two sign-in screens and the "remember me" preference.

    Both screens trim the email and password and refuse an empty one; there
    is no length rule at sign-in. The start screen also remembers the email
    of a successful sign-in when its checkbox is ticked, and pre-fills it on
    the next start.
 */
module SignIn {
  import opened Wrappers
  import opened Text
  import opened Forms

  /** The shared `validateInputs` of the two sign-in screens. */
  function ValidateCredentials(email: string, password: string): (v: Verdict)
    ensures v == Accepted <==> Filled(email) && Filled(password)
    ensures v != PasswordTooShort
  {
    if email == [] || password == [] then MissingField else Accepted
  }

  datatype SignInOutcome = Rejected | SignIn(email: string, password: string)

  /** `handleSignIn` / `signInWithEmail` up to the authentication request:
      the request carries the trimmed values and is made only when both are
      non-empty. */
  function HandleSignIn(rawEmail: string, rawPassword: string): (r: SignInOutcome)
    ensures r.SignIn? <==> ValidateCredentials(Trim(rawEmail), Trim(rawPassword)) == Accepted
    ensures r.SignIn? ==> r.email == Trim(rawEmail) && r.password == Trim(rawPassword)
  {
    var email := Trim(rawEmail);
    var password := Trim(rawPassword);
    if ValidateCredentials(email, password) != Accepted then Rejected else SignIn(email, password)
  }

  /** Any password with a non-blank character is long enough to try. */
  lemma NoPasswordLengthRule(rawEmail: string, rawPassword: string)
    ensures HandleSignIn(rawEmail, rawPassword).SignIn? <==> !AllBlank(rawEmail) && !AllBlank(rawPassword)
  {
    TrimEmptyIff(rawEmail);
    TrimEmptyIff(rawPassword);
  }

  // ---------------------------------------------------------------------
  // Remember me
  // ---------------------------------------------------------------------

  /** The "login_prefs" file: the two keys the screen uses, each possibly
      absent. */
  datatype Prefs = Prefs(rememberMe: Option<bool>, email: Option<string>)

  /** The preferences after the sign-in callback. */
  function AfterSignIn(prefs: Prefs, succeeded: bool, checked: bool, email: string): (r: Prefs)
    ensures !succeeded ==> r == prefs
    ensures succeeded && checked ==> r == Prefs(Some(true), Some(email))
    ensures succeeded && !checked ==> r == Prefs(None, None)
  {
    if !succeeded then prefs
    else if checked then prefs.(rememberMe := Some(true), email := Some(email))
    else Prefs(None, None)
  }

  /** The email input and checkbox on start. */
  datatype LoginForm = LoginForm(email: string, checked: bool)

  /** `checkUserLoggedIn`'s prefill: only when "remember me" is set and the
      saved email (default "") is non-empty. */
  function Prefill(prefs: Prefs, form: LoginForm): (r: LoginForm)
    ensures r != form ==> prefs.rememberMe == Some(true) && prefs.email.Some? && prefs.email.value != []
    ensures prefs.rememberMe == Some(true) && prefs.email.Some? && prefs.email.value != [] ==>
      r == LoginForm(prefs.email.value, true)
  {
    var remember := prefs.rememberMe.GetOr(false);
    var saved := prefs.email.GetOr("");
    if remember && saved != [] then LoginForm(saved, true) else form
  }

  /** A remembered sign-in pre-fills the same email, with the box ticked,
      on the next start; a sign-in with the box clear leaves the next start
      untouched. */
  lemma RememberMeRoundTrip(prefs: Prefs, rawEmail: string, rawPassword: string, checked: bool, next: LoginForm)
    requires HandleSignIn(rawEmail, rawPassword).SignIn?
    ensures var email := HandleSignIn(rawEmail, rawPassword).email;
      Prefill(AfterSignIn(prefs, true, checked, email), next) == (if checked then LoginForm(email, true) else next)
  {
  }

  /** A failed sign-in changes nothing the next start sees. */
  lemma FailedSignInKeepsPrefill(prefs: Prefs, checked: bool, email: string, next: LoginForm)
    ensures Prefill(AfterSignIn(prefs, false, checked, email), next) == Prefill(prefs, next)
  {
  }
}

=== FILE: sign_up.dfy ===
/** The registration screen: four fields, trimmed, validated, then an
    account is created and the profile node written. */
module SignUp {
  import opened Wrappers
  import opened Text
  import opened Database
  import opened Accounts
  import opened Forms

  const MinPasswordLength: nat := 6

  datatype SignUpForm = SignUpForm(fullName: string, email: string, password: string, phone: string)

  predicate AllFilled(f: SignUpForm)
  {
    Filled(f.fullName) && Filled(f.email) && Filled(f.password) && Filled(f.phone)
  }

  /** `validateInputs`: the emptiness check runs before the length check,
      and the length is Java's, in UTF-16 code units. */
  function ValidateSignUp(f: SignUpForm): (v: Verdict)
    ensures v == Accepted <==> AllFilled(f) && Utf16Length(f.password) >= MinPasswordLength
    ensures v == MissingField <==> !AllFilled(f)
    ensures v == PasswordTooShort <==> AllFilled(f) && Utf16Length(f.password) < MinPasswordLength
  {
    if f.fullName == [] || f.email == [] || f.password == [] || f.phone == [] then MissingField
    else if Utf16Length(f.password) < 6 then PasswordTooShort
    else Accepted
  }

  /** A password of characters from the Basic Multilingual Plane is
      measured by its character count. */
  lemma BmpPasswordCountsCharacters(f: SignUpForm)
    requires AllFilled(f)
    requires forall i :: 0 <= i < |f.password| ==> f.password[i] as int < 0x1_0000
    ensures ValidateSignUp(f) == PasswordTooShort <==> |f.password| < MinPasswordLength
  {
    Utf16LengthBmp(f.password);
  }

  /** Three characters beyond the Basic Multilingual Plane make six code
      units, so such a password passes the length rule. */
  lemma AstralPasswordAccepted()
    ensures ValidateSignUp(SignUpForm("a", "b", "\U{1F600}\U{1F600}\U{1F600}", "c")) == Accepted
  {
    var p := "\U{1F600}\U{1F600}\U{1F600}";
    assert p[1..][1..][1..] == [];
    assert Utf16Length(p) == 6;
  }

  function TrimForm(raw: SignUpForm): (f: SignUpForm)
    ensures f.fullName == Trim(raw.fullName) && f.email == Trim(raw.email)
    ensures f.password == Trim(raw.password) && f.phone == Trim(raw.phone)
  {
    SignUpForm(Trim(raw.fullName), Trim(raw.email), Trim(raw.password), Trim(raw.phone))
  }

  /** What pressing "sign up" does: stop with a verdict, or ask for an
      account with the trimmed form. */
  datatype SignUpOutcome = Rejected(verdict: Verdict) | CreateAccount(form: SignUpForm)

  /** `handleSignUp` up to the account request. */
  function HandleSignUp(raw: SignUpForm): (r: SignUpOutcome)
    ensures r.CreateAccount? <==> ValidateSignUp(TrimForm(raw)) == Accepted
    ensures r.CreateAccount? ==> r.form == TrimForm(raw)
    ensures r.Rejected? ==> r.verdict == ValidateSignUp(TrimForm(raw)) && r.verdict != Accepted
  {
    var f := TrimForm(raw);
    var v := ValidateSignUp(f);
    if v != Accepted then Rejected(v) else CreateAccount(f)
  }

  /** A field of blanks is a missing field, whatever the password length:
      trimming happens before validation and emptiness is checked first. */
  lemma BlankFieldIsMissing(raw: SignUpForm)
    requires AllBlank(raw.fullName) || AllBlank(raw.email) || AllBlank(raw.password) || AllBlank(raw.phone)
    ensures HandleSignUp(raw) == Rejected(MissingField)
  {
    TrimEmptyIff(raw.fullName);
    TrimEmptyIff(raw.email);
    TrimEmptyIff(raw.password);
    TrimEmptyIff(raw.phone);
  }

  /** With every field holding a non-blank character, the only refusal
      left is the length rule, which counts the trimmed password: blanks
      around it do not make it long enough. */
  lemma ShortPasswordRefusedIff(raw: SignUpForm)
    requires !AllBlank(raw.fullName) && !AllBlank(raw.email) && !AllBlank(raw.password) && !AllBlank(raw.phone)
    ensures HandleSignUp(raw) == Rejected(PasswordTooShort) <==> Utf16Length(Trim(raw.password)) < MinPasswordLength
    ensures HandleSignUp(raw).CreateAccount? <==> Utf16Length(Trim(raw.password)) >= MinPasswordLength
  {
    TrimEmptyIff(raw.fullName);
    TrimEmptyIff(raw.email);
    TrimEmptyIff(raw.password);
    TrimEmptyIff(raw.phone);
  }

  /** The profile node `saveUserProfile` writes. */
  function SaveUserProfile(f: SignUpForm): (node: Node)
    ensures node.Keys == {"fullName", "email", "phone"}
    ensures GetString(node, "fullName") == Some(f.fullName)
    ensures GetString(node, "email") == Some(f.email)
    ensures GetString(node, "phone") == Some(f.phone)
  {
    SetValue(map["fullName" := Text(f.fullName), "email" := Text(f.email), "phone" := Text(f.phone)])
  }

  /** The registration callback: on success with a signed-in user the
      profile is written; otherwise nothing is. */
  function OnRegistered(succeeded: bool, user: Option<User>, f: SignUpForm): (r: Option<Node>)
    ensures r.Some? <==> succeeded && user.Some?
    ensures r.Some? ==> r.value == SaveUserProfile(f)
  {
    if succeeded && user.Some? then Some(SaveUserProfile(f)) else None
  }

  /** The password never reaches the profile node. */
  lemma PasswordNotStored(f: SignUpForm)
    ensures forall k :: k in SaveUserProfile(f) ==> k != "password"
  {
  }
}

=== FILE: text.dfy ===
/** String primitives the app relies on, with Java's meaning.

    `Lower` is `String.toLowerCase` restricted to ASCII case folding,
    `Utf16Length` is `String.length`, which counts UTF-16 code units,
    `EndsWith`/`StartsWith`/`Contains` are the `String` methods of the same
    name, and `Trim` is `String.trim`, which strips every character whose
    code is at most U+0020 from both ends.
 */
module Text {

  // ---------------------------------------------------------------------
  // Case folding
  // ---------------------------------------------------------------------

  function LowerChar(c: char): char
  {
    if 'A' <= c <= 'Z' then (c as int + 32) as char else c
  }

  function Lower(s: string): (r: string)
    ensures |r| == |s|
    ensures forall i :: 0 <= i < |s| ==> r[i] == LowerChar(s[i])
  {
    seq(|s|, i requires 0 <= i < |s| => LowerChar(s[i]))
  }

  lemma LowerConcat(a: string, b: string)
    ensures Lower(a + b) == Lower(a) + Lower(b)
  {
    assert |Lower(a + b)| == |Lower(a) + Lower(b)|;
    forall i | 0 <= i < |a + b|
      ensures Lower(a + b)[i] == (Lower(a) + Lower(b))[i]
    {
      assert Lower(a + b)[i] == LowerChar((a + b)[i]);
      if i < |a| {
        assert (a + b)[i] == a[i];
      } else {
        assert (a + b)[i] == b[i - |a|];
      }
    }
  }

  /** A string with no upper-case ASCII letter is unchanged by folding. */
  lemma LowerFixed(s: string)
    requires forall i :: 0 <= i < |s| ==> !('A' <= s[i] <= 'Z')
    ensures Lower(s) == s
  {
  }

  // ---------------------------------------------------------------------
  // Affixes and substrings
  // ---------------------------------------------------------------------

  predicate StartsWith(s: string, prefix: string)
  {
    |prefix| <= |s| && s[..|prefix|] == prefix
  }

  predicate EndsWith(s: string, suffix: string)
  {
    |suffix| <= |s| && s[|s| - |suffix|..] == suffix
  }

  /** Two suffixes of one string: the shorter is a suffix of the longer.
      This is what makes a fixed extension list order-independent when no
      entry is a suffix of another. */
  lemma SuffixOfSuffix(s: string, a: string, b: string)
    requires EndsWith(s, a) && EndsWith(s, b) && |a| <= |b|
    ensures EndsWith(b, a)
  {
    assert b[|b| - |a|..] == s[|s| - |a|..];
  }

  /** A suffix no longer than the tail `t` is decided by `t` alone. */
  lemma EndsWithConcat(x: string, t: string, e: string)
    requires |e| <= |t|
    ensures EndsWith(x + t, e) <==> EndsWith(t, e)
  {
    assert (x + t)[|x + t| - |e|..] == t[|t| - |e|..];
  }

  /** `hay.contains(needle)`: some window of `hay` equals `needle`. */
  predicate Contains(hay: string, needle: string)
    decreases |hay|
  {
    StartsWith(hay, needle) || (hay != [] && Contains(hay[1..], needle))
  }

  /** The window of `hay` starting at `i` spells `needle`. */
  predicate WindowAt(hay: string, needle: string, i: int)
  {
    0 <= i && i + |needle| <= |hay| && hay[i..i + |needle|] == needle
  }

  /** The recursive definition agrees with the window characterisation. */
  lemma {:induction false} ContainsIff(hay: string, needle: string)
    ensures Contains(hay, needle) <==> exists i :: WindowAt(hay, needle, i)
    decreases |hay|
  {
    if StartsWith(hay, needle) {
      assert WindowAt(hay, needle, 0);
    } else if hay == [] {
    } else {
      ContainsIff(hay[1..], needle);
      if exists i :: WindowAt(hay, needle, i) {
        var i :| WindowAt(hay, needle, i);
        assert i != 0;
        assert hay[1..][i - 1..i - 1 + |needle|] == hay[i..i + |needle|];
        assert WindowAt(hay[1..], needle, i - 1);
      }
      if Contains(hay[1..], needle) {
        var j :| WindowAt(hay[1..], needle, j);
        assert hay[j + 1..j + 1 + |needle|] == hay[1..][j..j + |needle|];
        assert WindowAt(hay, needle, j + 1);
      }
    }
  }

  // ---------------------------------------------------------------------
  // Trimming
  // ---------------------------------------------------------------------

  /** The characters `String.trim` removes. */
  predicate IsBlank(c: char)
  {
    c <= ' '
  }

  predicate AllBlank(s: string)
  {
    forall i :: 0 <= i < |s| ==> IsBlank(s[i])
  }

  /** The number of blanks `s` starts with. */
  function Leading(s: string): (n: nat)
    ensures n <= |s| && AllBlank(s[..n])
    ensures n == |s| || !IsBlank(s[n])
  {
    if s != [] && IsBlank(s[0]) then
      var n := 1 + Leading(s[1..]);
      assert forall m :: 1 <= m < n ==> s[..n][m] == s[1..][..n - 1][m - 1];
      n
    else 0
  }

  function TrimEnd(s: string): (r: string)
    ensures |r| <= |s| && r == s[..|r|]
    ensures AllBlank(s[|r|..])
    ensures r == [] || !IsBlank(r[|r| - 1])
  {
    if s != [] && IsBlank(s[|s| - 1]) then TrimEnd(s[..|s| - 1]) else s
  }

  /** `String.trim`: drop the leading blanks, then the trailing ones; what
      is left is the middle of the input, between a blank prefix and a blank
      suffix, and neither starts nor ends with a blank. */
  function Trim(s: string): (r: string)
    ensures Leading(s) + |r| <= |s| && r == s[Leading(s)..Leading(s) + |r|]
    ensures AllBlank(s[Leading(s) + |r|..])
    ensures r == [] || (!IsBlank(r[0]) && !IsBlank(r[|r| - 1]))
  {
    var n := Leading(s);
    var r := TrimEnd(s[n..]);
    assert s[n..][..|r|] == s[n..n + |r|];
    assert s[n..][|r|..] == s[n + |r|..];
    r
  }

  /** Trimming leaves nothing exactly when the input is blank throughout,
      so a whitespace-only field counts as empty. */
  lemma {:induction false} TrimEmptyIff(s: string)
    ensures Trim(s) == [] <==> AllBlank(s)
  {
    var n := Leading(s);
    if !AllBlank(s) {
      forall m | 0 <= m < n ensures IsBlank(s[m]) {
        assert s[..n][m] == s[m];
      }
      var t := s[n..];
      assert t[0] == s[n];
      assert t[0..] == t;
    }
  }

  /** A string with no blank at either end is its own trim. */
  lemma TrimFixed(s: string)
    requires s == [] || (!IsBlank(s[0]) && !IsBlank(s[|s| - 1]))
    ensures Trim(s) == s
  {
  }

  /** Trimming is idempotent. */
  lemma TrimIdempotent(s: string)
    ensures Trim(Trim(s)) == Trim(s)
  {
    TrimFixed(Trim(s));
  }

  // ---------------------------------------------------------------------
  // Java string length
  // ---------------------------------------------------------------------

  /** The UTF-16 code units `c` takes in a Java string: a character beyond
      the Basic Multilingual Plane is stored as a surrogate pair. */
  function Utf16Units(c: char): nat
  {
    if c as int >= 0x1_0000 then 2 else 1
  }

  /** `String.length`: the number of UTF-16 code units, between the
      character count and twice it, and zero only for the empty string. */
  function Utf16Length(s: string): (n: nat)
    ensures |s| <= n <= 2 * |s|
    ensures n == 0 <==> s == []
  {
    if s == [] then 0 else Utf16Units(s[0]) + Utf16Length(s[1..])
  }

  /** One character takes its own units. */
  lemma Utf16LengthSingle(c: char)
    ensures Utf16Length([c]) == Utf16Units(c)
  {
    assert [c][1..] == [];
  }

  /** The length of a concatenation is the sum of the lengths: together
      with the one-character case this pins `Utf16Length` down as the sum
      of the characters' units. */
  lemma {:induction false} Utf16LengthConcat(a: string, b: string)
    ensures Utf16Length(a + b) == Utf16Length(a) + Utf16Length(b)
    decreases |a|
  {
    if a == [] {
      assert a + b == b;
    } else {
      assert (a + b)[0] == a[0];
      assert (a + b)[1..] == a[1..] + b;
      Utf16LengthConcat(a[1..], b);
    }
  }

  /** Within the Basic Multilingual Plane the Java length is the character
      count. */
  lemma {:induction false} Utf16LengthBmp(s: string)
    requires forall i :: 0 <= i < |s| ==> s[i] as int < 0x1_0000
    ensures Utf16Length(s) == |s|
    decreases |s|
  {
    if s != [] {
      assert forall i :: 0 <= i < |s[1..]| ==> s[1..][i] == s[i + 1];
      Utf16LengthBmp(s[1..]);
    }
  }

  // ---------------------------------------------------------------------
  // Decimal rendering
  // ---------------------------------------------------------------------

  predicate IsDigit(c: char)
  {
    '0' <= c <= '9'
  }

  /** `String.valueOf(long)` for a non-negative value. */
  function DecimalString(n: nat): (r: string)
    ensures |r| > 0
    ensures forall i :: 0 <= i < |r| ==> IsDigit(r[i])
  {
    var d := ['0' + (n % 10) as char];
    if n < 10 then d else DecimalString(n / 10) + d
  }

  predicate AllDigits(s: string)
  {
    forall i :: 0 <= i < |s| ==> IsDigit(s[i])
  }

  /** The number a string of decimal digits denotes, most significant
      digit first. */
  function DecimalValue(s: string): nat
    requires AllDigits(s)
  {
    if s == [] then 0
    else DecimalValue(s[..|s| - 1]) * 10 + (s[|s| - 1] as int - '0' as int)
  }

  /** Reading the rendered digits back gives the number. */
  lemma {:induction false} DecimalRoundTrip(n: nat)
    ensures DecimalValue(DecimalString(n)) == n
    decreases n
  {
    var d := ['0' + (n % 10) as char];
    if n >= 10 {
      var s := DecimalString(n / 10) + d;
      assert s[..|s| - 1] == DecimalString(n / 10);
      DecimalRoundTrip(n / 10);
    }
  }

  /** Different numbers render differently. */
  lemma DecimalStringInjective(m: nat, n: nat)
    requires DecimalString(m) == DecimalString(n)
    ensures m == n
  {
    DecimalRoundTrip(m);
    DecimalRoundTrip(n);
  }
}

=== FILE: wrappers.dfy ===
/** Failure-carrying datatypes shared by the whole model.

    Java references that may be null become `Option`; an operation that can
    end in a thrown exception, or that silently returns early because nobody
    is signed in, returns a `Result` whose failure names what happened.
 */
module Wrappers {

  /** A nullable Java value: `None` stands for `null`. */
  datatype Option<+T> = None | Some(value: T) {

    /** The value, or `default` when it is null. */
    function GetOr(default: T): (r: T)
      ensures Some? ==> r == value
      ensures None? ==> r == default
    {
      match this
      case Some(v) => v
      case None => default
    }
  }

  /** Why an operation produced no result. */
  datatype Fault =
    | NoUser            // no signed-in user: the handler returns without effect
    | NullPointer       // a null field was dereferenced
    | IndexOutOfBounds  // `substring` past the end of a string
    | IoFailure         // copying bytes into local storage threw

  datatype Result<+T> = Ok(value: T) | Fail(fault: Fault)
}
